=== FILE: README.md ===
# conferencia.js — a verified model of the route-checking core

`conferencia.js` is a browser tool for checking delivery routes. An operator imports the
shipment ids a route should carry. Each id is then scanned, either with a barcode reader or
from a scanner's CSV export, and the tool files it as verified (`conferidos`), still expected
(`faltantes`), off route (`foraDeRota`) or repeated (`duplicados`, a read counter). This
project models the per-route core of the tool in Dafny:

- the code normaliser `normalizarCodigo`;
- the reconciliation of one read, `conferirId`, together with the cross-route resolver
  `findCorrectRouteForId` and the clean-up `cleanupIdFromOtherRoutes`;
- the route registry: `makeEmptyRoute`, `setCurrentRoute`, `deleteRoute`, `clearAllRoutes`,
  the merge step of HTML import and of manual entry, and the load-time migration;
- the row computation of the current-route CSV export and the grid of the all-routes export;
- the CSV ingestion loop and the progress percentage.

The project has two layers.

- **Values.** `Routes.RouteState` is one route and `Registry.AppState` is the whole
  application. Every operation on them is a function, and its properties are proved as lemmas.
- **Live objects.** The source mutates objects in place, and the modules that act that way
  become classes. `App.Route` holds one route's sets and maps as fields. `App.ConferenciaApp`
  holds the `routes` map of route objects, the map's insertion order (`order`), the selected
  route and the `viaCsv` flag. Each method is proved to move the state exactly as the
  corresponding function says (`ensures Snapshot() == Conferir(old(Snapshot()), codigo, now)`).
  Every state-changing loop of the source is a loop with invariants in the model: the cleaning loop over
  the routes (`App.ConferenciaApp.CleanupIdFromOtherRoutes`), the loop over the imported
  blocks (`App.ConferenciaApp.ImportRoutes`), the loops adding ids and rebuilding
  `faltantes` on one route (`App.Route.AddIds`, `App.Route.RebuildFaltantes`) and the CSV
  loop over the lines (`App.ConferenciaApp.ReadLines`). The read-only loops are recursive
  functions: the three passes of `findCorrectRouteForId` (`Registry.FirstWithRank`,
  `Registry.ResolveIndex`), the export's collection and sorting (`Report.SortIds`,
  `Report.RowsFor`) and the grid's row loop (`Report.Body`).

Behaviour worth knowing:

- The resolver looks in `ids` first, then in `faltantes`, then in `conferidos` (276-287).
- Cross-route clean-up runs only when the resolved owner is the selected route (344-350). It
  runs before the read is classified, and never because a read was filed off route.
- `totalInicial` is set to `|ids|` after a merge (459).
- Progress divides by `totalInicial || ids.size || conferidos + faltantes` (193).
- The three sets of a route can overlap: an import can list an id that the route already
  holds off route (`Registry.ImportCanOverlapOffRoute`). Reads, clean-up and migration do
  keep disjointness (`Routes.ObserveAllDisjoint`, `Registry.ConferirAllDisjoint`,
  `Csv.IngestDisjoint`).
- The CSV flag is not cleared when a file is rejected for lacking a text column (937-958).
  `Csv.BatchAsWritten` models the handler as written. `Csv.RunBatch` is the corrected
  handler, which clears the flag on every way out, and the live handler
  `App.ConferenciaApp.CheckCsv` follows it (see Findings).

The source file holds several drafts pasted over one another. The model follows the draft
that works on `r = this.current` and on the `routes` map. The global-state draft interleaved
with it is not part of this model.

## Model

| member | source | states |
|---|---|---|
| Strings.Trim | conferencia.js:255 | `trim()`: the result is the input with whitespace removed from both ends; it neither starts nor ends with whitespace (JavaScript's whitespace and line-terminator set) |
| Strings.TrimStart | conferencia.js:255 | the result is a suffix of the input, everything cut off is whitespace, and the result does not start with whitespace |
| Strings.TrimEnd | conferencia.js:255 | the result is a prefix of the input, everything cut off is whitespace, and the result does not end with whitespace |
| Strings.TrimNoSpace | conferencia.js:255 | a string with no whitespace at either end is its own trim |
| Strings.SplitOn | conferencia.js:937 | `split(',')`: at least one piece, and no piece contains the separator |
| Strings.SplitJoin | conferencia.js:937 | joining the pieces with the separator gives back the line, so splitting loses nothing |
| Strings.SplitCount | conferencia.js:947-948 | a line with n commas has n + 1 columns; this is the row-length test of the CSV loop |
| Strings.SplitSeps | conferencia.js:806 | the split at every single separator of `[\s,;]`: one more piece than separators, no piece holds a separator, and the first piece is non-empty exactly when the input starts with a non-separator |
| Strings.SplitSepsRejoin | conferencia.js:806 | putting the separators back between the pieces gives back the input, so the pieces are exactly the stretches between separators |
| Strings.Tokens | conferencia.js:806 | `split(/[\s,;]+/).map(trim).filter(Boolean)`: the result is exactly the non-empty pieces of `SplitSeps` (the split at every single separator), so the tokens are the maximal separator-free runs, in order; every result is a non-empty run without separators, and together they hold exactly the non-separator characters of the input |
| Strings.StrLessIrreflexive | conferencia.js:576 | the id order used for ties (code-point order, standing for `localeCompare`) is irreflexive |
| Strings.StrLessTransitive | conferencia.js:576 | the id order is transitive |
| Strings.StrLessTotal | conferencia.js:576 | any two different ids are ordered one way or the other |
| Strings.StrLessAsymmetric | conferencia.js:576 | the id order is asymmetric |
| Normalizer.StripControls | conferencia.js:255 | removes the C0 and C1 control characters: the result keeps none of them, and a single character survives exactly when it is not a control character |
| Normalizer.StripNoControls | conferencia.js:255 | a string without control characters is left unchanged |
| Normalizer.StripControlsAppend | conferencia.js:255 | the strip of a concatenation is the concatenation of the strips; with the one-character case, every non-control character is kept, in order |
| Normalizer.FirstRun | conferencia.js:257 | finds the leftmost position of a `4` followed by ten digits, or reports that there is none |
| Normalizer.Digits | conferencia.js:260 | `replace(/\D/g, '')`: the result is all digits and no longer than the input, and a single character survives exactly when it is a digit |
| Normalizer.DigitsOfDigits | conferencia.js:260 | a string of digits loses nothing to the non-digit strip |
| Normalizer.DigitsAppend | conferencia.js:260 | the digits of a concatenation are the digits of each part, in order; with the one-character case, every digit is kept and every other character dropped |
| Normalizer.Extract | conferencia.js:257-263 | on the cleaned string: the first `4\d{10}` run when there is one; otherwise the first 11 digits when there are at least 11; otherwise nothing. Any result is 11 ASCII digits |
| Normalizer.Normalize | conferencia.js:253-264 | `normalizarCodigo`: empty input gives null; otherwise, after trim and control strip, the first `4\d{10}` run wins; failing that, the first 11 of at least 11 digits; else null; any result is exactly 11 digits |
| Normalizer.CleanDigits | conferencia.js:255 | trim and control strip leave a digit string alone |
| Normalizer.ExtractIdentifier | conferencia.js:257-261 | an 11-digit string is found whole |
| Normalizer.NormalizeIdentifier | conferencia.js:253-264 | every normalised id normalises to itself |
| Normalizer.NormalizeIdempotent | conferencia.js:253-264 | normalising a result of the normaliser gives the same result |
| Normalizer.UniqueRunExtracted | conferencia.js:257-258 | when the cleaned input holds exactly one `4\d{10}` run, that run is the result |
| Routes.EmptyRoute | conferencia.js:105-121 | `makeEmptyRoute`: the given id, empty strings, empty sets and maps, total 0 |
| Routes.ReadCount | conferencia.js:354 | the read count `duplicados.get(codigo)`, or 1 in its place: 1 when there is no counter or it is 0, otherwise the counter |
| Routes.Bump | conferencia.js:354-355 | the code's counter becomes its read count plus one; every other counter is unchanged |
| Routes.Observe | conferencia.js:353-389 | one read into the selected route: only the three sets, the counters and the timestamps change, `timestamps[codigo] = now`, the code ends up verified or off route, each set changes by at most that code, and disjointness is kept |
| Routes.ObserveExpected | conferencia.js:370-378 | an expected, unverified code moves from `faltantes` to `conferidos` with its timestamp set; `foraDeRota` and `duplicados` are untouched; no alarm |
| Routes.ObserveRepeat | conferencia.js:353-385 | a code already verified, or off route and not expected, is a repeat on any route, overlapping sets included: the three sets stay as they were, its counter becomes (old value, or 1 if absent or 0) + 1 and its timestamp is set; the alarm sounds exactly when not reading a CSV |
| Routes.ObserveUnknown | conferencia.js:386-389 | a code the route never saw joins `foraDeRota` only; the alarm sounds exactly when not reading a CSV |
| Routes.ObserveAllDisjoint | conferencia.js:353-389 | any sequence of reads keeps a route's three sets pairwise disjoint |
| Routes.RepeatedReadsCount | conferencia.js:353-356 | an expected code read k times is verified and its counter equals k (no counter after one read); its timestamp is the last read's |
| Routes.CleanupState | conferencia.js:301-323 | one route of the clean-up: the id leaves `foraDeRota` and `duplicados`; its timestamp goes exactly when something was removed and the id is in none of `conferidos`, `faltantes`, `ids`; every other field, key and counter is unchanged; disjointness is kept |
| Routes.Merge | conferencia.js:454-459 | every merged id is in `ids` and in `faltantes` or already in `conferidos`; nothing is removed; only merged ids are added; `conferidos` is unchanged; `totalInicial` is the size of `ids` |
| Routes.MergeIdempotent | conferencia.js:454-459 | merging the same ids twice equals merging them once |
| Routes.MergeDisjoint | conferencia.js:454-456 | after a merge the route stays disjoint if and only if no merged, unverified id is already off route |
| Routes.Migrate | conferencia.js:49-52 | the load migration: when `faltantes` is empty and `ids` is not, `faltantes` becomes `ids − conferidos`; otherwise the route is unchanged; nothing else is touched |
| Routes.MigrateIdempotent | conferencia.js:49-52 | migrating twice equals migrating once |
| Registry.CurrentKey | conferencia.js:123-126 | `get current()`: a route only when the selected id is non-empty and stored |
| Registry.FirstWithRank | conferencia.js:277-285 | one pass of the resolver: the first route in map order holding the id in the given set, or none |
| Registry.ResolveIndex | conferencia.js:276-287 | the three passes in order: a position is returned exactly when some route knows the id, and no route has a stronger claim on it |
| Registry.Resolve | conferencia.js:276-287 | `findCorrectRouteForId`: a returned route really holds the id in `ids`, `faltantes` or `conferidos`, no route has a stronger claim (ids, then expected, then verified), and null exactly when no route holds it anywhere; among routes with equally strong claims, the one that comes first in map order wins |
| Registry.CleanupOthers | conferencia.js:289-326 | `cleanupIdFromOtherRoutes`: same keys, the target untouched, and every other route becomes `CleanupState` of itself (the id leaves `foraDeRota` and `duplicados`, its timestamp goes only when neither verified nor expected, every other field is kept); disjointness of all routes is kept |
| Registry.Conferir | conferencia.js:335-350 | `conferirId`: nothing changes without a selected route or with an empty code; otherwise only routes change, keys and order stay, and disjointness of all routes is kept |
| Registry.ConferirCurrent | conferencia.js:353-389 | the selected route reads the code exactly as `Routes.Observe` describes |
| Registry.ConferirNotOwnerLeavesOthers | conferencia.js:343-350 | when the selected route does not own the code, every other route is left exactly as it was |
| Registry.ConferirOwnerCleansOthers | conferencia.js:343-350 | when the selected route owns the code, every other route becomes `CleanupState` of itself: it loses the code from `foraDeRota` and `duplicados` and keeps its expected and verified sets |
| Registry.MigrationScenario | conferencia.js:343-389 | X is off route in route A and expected in the selected route B: after reading X, A holds no off-route entry or counter for X, and B has verified it |
| Registry.ConferirAll | conferencia.js:335-401 | a sequence of reads keeps the order, the selection, the flag and the keys |
| Registry.ConferirAllDisjoint | conferencia.js:335-401 | any sequence of reads keeps every route's sets disjoint |
| Registry.Store | conferencia.js:460 | `routes.set`: the route is stored under its key, a new key goes to the end of the order, and the registry stays well formed |
| Registry.Without | conferencia.js:89 | the key is removed from the order, the rest is kept, and no key is repeated |
| Registry.WithoutAt | conferencia.js:89 | when the order holds no repeats, removing the route at position p leaves the routes before p followed by those after it: every other route keeps its place relative to the rest |
| Registry.DeleteRoute | conferencia.js:87-93 | an empty id changes nothing; otherwise only that route goes, its key leaves `order` with the rest in place, the selection becomes null when it pointed at it and is kept otherwise, and the registry stays well formed |
| Registry.ClearAllRoutes | conferencia.js:95-100 | no routes and no selection; the flag is kept |
| Registry.SetCurrentRoute | conferencia.js:128-138 | a stored route becomes selected; an unknown id changes nothing |
| Registry.Annotate | conferencia.js:433-440 | a block's cluster and facility replace the route's when present; nothing else changes |
| Registry.Base | conferencia.js:431 | the stored route for the id, else `makeEmptyRoute(routeId)` |
| Registry.ImportBlock | conferencia.js:430-461 | one import block: a block with ids merges them into the stored or a new route, and only that route changes; a block without ids stores nothing new: the state is unchanged for an unknown route, and for a stored route only that route changes, taking its cluster and facility; the order gains the route id exactly when the block has ids and the route is new |
| Registry.ImportNewBlock | conferencia.js:431-461 | a block with ids for an unknown route stores a new route: empty, described by the block, given the ids |
| Registry.ImportBlockWellFormed | conferencia.js:430-461 | an import block keeps the registry well formed |
| Registry.ImportedCount | conferencia.js:452-461 | the count returned is the number of positions holding a block with ids, so at most the number of blocks |
| Registry.ImportAll | conferencia.js:426-462 | `importRoutesFromHtml` after extraction: the selection and the flag stay |
| Registry.ImportAllStep | conferencia.js:426-462 | one more block is one more `ImportBlock`, and the count grows by one exactly when the block had ids |
| Registry.ImportAllWellFormed | conferencia.js:426-462 | any import keeps the registry well formed |
| Registry.ManualEntry | conferencia.js:802-852 | `#submit-manual`: refuses when the trimmed route id is empty or no id token is found (both directions); otherwise only that route changes, and it is `Merge` of the stored (or empty) route with the tokens: `ids` become old plus tokens, `faltantes` gain every token not already verified, `conferidos` stays, the total is the size of `ids`, and a non-empty trimmed cluster replaces the old one; a new route is appended to `order`, and the selection and CSV flag are kept |
| Registry.ManualEntryWellFormed | conferencia.js:818-852 | a saved manual entry keeps the registry well formed |
| Registry.ImportCanOverlapOffRoute | conferencia.js:454-456 | an import can list an id already off route in that route: it then becomes expected too, and the route is no longer disjoint |
| Report.BeforeIrreflexive | conferencia.js:573-577 | the export comparator (timestamp, missing as 0, then id) never puts an id before itself |
| Report.BeforeTransitive | conferencia.js:573-577 | the comparator is transitive |
| Report.BeforeTotal | conferencia.js:573-577 | the comparator orders any two different ids |
| Report.BeforeAsymmetric | conferencia.js:573-577 | the comparator is asymmetric, so it is a strict total order and the sort is determined |
| Report.FirstExists | conferencia.js:573-577 | every non-empty set of ids has a first element under the comparator |
| Report.SortIds | conferencia.js:573-577 | the sort: each id of the set exactly once, in comparator order |
| Report.SortedUnique | conferencia.js:573-577 | two sorted lists with the same ids are equal: the export order does not depend on iteration order |
| Report.DuplicatesColumn | conferencia.js:590-591 | the `duplicates` column: 0 without a counter, otherwise `max(0, count − 1)` |
| Report.RowOf | conferencia.js:579-594 | one row: the id, its raw timestamp when it has one, and its `duplicates` column |
| Report.RowsFor | conferencia.js:579-595 | one row per id, in the given order |
| Report.ExportRows | conferencia.js:481-595 | refuses exactly when `conferidos ∪ foraDeRota ∪ keys(duplicados)` is empty; otherwise one row per candidate, each exactly once, sorted by timestamp then id |
| Report.ExportCurrent | conferencia.js:473-478 | refuses without a selected route; otherwise exports that route |
| Report.ReadsExported | conferencia.js:588-591 | an expected code read k times is exported with k − 1 extra reads |
| Report.Header | conferencia.js:627-635 | the column heading is `routeId-cluster` with the trimmed cluster when that is non-empty, the route id alone when the cluster is empty, and `ROTA` when both are empty |
| Report.RouteOrder | conferencia.js:624-625 | columns are the stored routes, each once, in increasing id order |
| Report.Column | conferencia.js:643-652 | a column lists the route's verified ids exactly once each, sorted by timestamp then id |
| Report.MaxLen | conferencia.js:659 | the length of the longest column, 0 without columns |
| Report.Headings | conferencia.js:663 | the heading row: one heading per column, in column order |
| Report.Columns | conferencia.js:628-657 | one column per route, in the given order |
| Report.BodyRow | conferencia.js:666 | row i holds each column's i-th id, or `''` past its end |
| Report.Body | conferencia.js:665-667 | `maxLen` body rows, row i from `BodyRow` |
| Report.Sheet | conferencia.js:662-667 | the grid: the heading row, then `maxLen` body rows |
| Report.Grid | conferencia.js:619-667 | refuses exactly when no route is stored; otherwise the sheet of headings and columns in route-id order |
| Report.ProgressPercent | conferencia.js:193-194 | `floor(100 · verified / total)` with total `totalInicial`, else the size of `ids`, else verified plus expected, and 0 when the total is 0 |
| Report.Progress | conferencia.js:189-194 | a percentage exactly when a route is selected, and then it is that route's `ProgressPercent` |
| Report.ProgressAtMost100 | conferencia.js:193-194 | while verified ids are imported ids and the total was taken at the last merge, progress is at most 100% |
| Report.TrackedPreserved | conferencia.js:459 | merges, reads of any code, clean-up and migration keep expected and verified ids within `ids` and keep the total |
| Csv.DropCR | conferencia.js:930 | a line ending in a carriage return loses exactly that character; any other line is unchanged |
| Csv.Lines | conferencia.js:930 | `split(/\r?\n/)`: the line-feed pieces, each of which was ended by a line feed losing one carriage return; never empty; no piece holds a line feed |
| Csv.FindTextColumn | conferencia.js:937-938 | `findIndex`: the leftmost header cell containing `text` or `id`, in any ASCII case, or none when no cell does |
| Csv.Unquote | conferencia.js:950 | the strip of one leading and one trailing quote: a field quoted at both ends loses both quotes, one quoted only at the front or only at the back loses that quote, and an unquoted one is unchanged |
| Csv.Unescape | conferencia.js:950 | `replace(/""/g, '"')`: never longer than the field; a doubled quote alone becomes one quote, a single character is kept, and a field with no two quotes in a row is unchanged |
| Csv.Escape | conferencia.js:950 | the quote doubling that `replace(/""/g, '"')` undoes: never shorter than the text; a quote becomes two, any other character is kept, and text without quotes is unchanged |
| Csv.EscapeAppend | conferencia.js:950 | escaping works piece by piece, so with the one-character case every quote is doubled and every other character kept, in order |
| Csv.UnescapeEscape | conferencia.js:950 | `replace(/""/g, '"')` undoes CSV quote doubling |
| Csv.QuotedFieldRoundTrip | conferencia.js:950 | un-quoting and un-escaping a quoted, escaped field gives back the original text |
| Csv.Field | conferencia.js:946-950 | no field exactly when the line is blank or has too few columns; otherwise the field is the trimmed, unquoted and unescaped cell of that column |
| Csv.LineCode | conferencia.js:950-954 | no id when there is no field; otherwise the id is the normalised field, which when present is 11 digits |
| Csv.ReadLine | conferencia.js:954-955 | a line without an id changes nothing; otherwise it is one `conferirId`; the order, the selection, the flag and the keys stay |
| Csv.Ingest | conferencia.js:945-956 | the reading loop: the ids of the data lines, read in file order, each at its line's time; the order, the selection, the flag and the keys stay |
| Csv.IngestStep | conferencia.js:945-956 | reading one more line is one more `ReadLine`, so reading the file line by line is scanning its ids in order |
| Csv.Codes | conferencia.js:945-956 | the ids carried by the data lines: each is 11 digits, and there is at most one per line |
| Csv.Stamps | conferencia.js:945-956 | one read time per id carried |
| Csv.IngestDisjoint | conferencia.js:945-956 | reading a file keeps every route's sets disjoint |
| Csv.BatchReadsAreSilent | conferencia.js:385-389 | with the batch flag set, no read sounds the alarm |
| Csv.BatchAsWritten | conferencia.js:923-958 | the click handler as written: a rejected file leaves the state as it was but with the flag set; a missing text column is rejected exactly when no header cell matches; an accepted file ends with the flag clear |
| Csv.RejectedFileKeepsBatchFlag | conferencia.js:937-958 | after a file with no text column the state is the old one with the flag set, so a `conferirId` that would sound the alarm before the file is silent after it |
| Csv.RunBatch | conferencia.js:923-958 | the batch with the flag cleared on every way out: a rejected file changes nothing; a missing text column is rejected exactly when no header cell matches; the empty-file error cannot occur; order, selection and keys stay |
| Csv.RunBatchFixesOnlyTheFlag | conferencia.js:923-958 | the corrected batch differs from the as-written one only in the flag it leaves |
| Csv.RunBatchIsSilentScanning | conferencia.js:945-958 | an accepted file leaves the routes as scanning its ids with the flag set would, and keeps every route disjoint |
| App.Route.constructor | conferencia.js:105-121 | a new route object holds `makeEmptyRoute(routeId)` |
| App.Route.Check | conferencia.js:353-389 | the route object's new contents are `Observe` of the old, and the answer is the read's classification |
| App.Route.RemoveStale | conferencia.js:301-323 | the route object's new contents are `CleanupState` of the old |
| App.Route.AddIds | conferencia.js:454-459 | the merge loop: the new contents are `Merge` of the old |
| App.Route.RebuildFaltantes | conferencia.js:49-52 | the migration loop: the new contents are `Migrate` of the old |
| App.Route.Enter | conferencia.js:819-833 | manual entry on the object: a non-empty cluster replaces the old one, then the ids are merged |
| App.Route.Absorb | conferencia.js:433-459 | an import block on the object: cluster and facility, then the ids when there are any |
| App.Route.Describe | conferencia.js:433-440 | the new contents are `Annotate` of the old |
| App.CleanedStep | conferencia.js:292-325 | the cleaning loop visits one more key: the key is cleaned unless it is the target |
| App.CleanedAll | conferencia.js:292-326 | before the loop nothing is cleaned; after all keys the result is `CleanupOthers` |
| App.NewManualRoute | conferencia.js:818-833 | a fresh route object: `makeEmptyRoute`, the typed cluster if any, then the ids |
| App.NewImportedRoute | conferencia.js:431-459 | a fresh route object: `makeEmptyRoute`, described by the block, then its ids |
| App.ConferenciaApp.ValidWellFormed | conferencia.js:460 | the object invariant (one key per route in order, each route stored under its own id) makes the snapshot well formed |
| App.ConferenciaApp.constructor | conferencia.js:6-18 | the application starts with no routes, no selection, and the flag clear |
| App.ConferenciaApp.CleanRoute | conferencia.js:295-324 | one route of the cleaning loop changes as `CleanupState` says; the others are untouched |
| App.ConferenciaApp.CleanupIdFromOtherRoutes | conferencia.js:289-326 | the loop over the routes in map order leaves them as `CleanupOthers` describes |
| App.ConferenciaApp.CheckRoute | conferencia.js:353-389 | only the selected route changes, as `Observe` says; the answer is the classification |
| App.ConferenciaApp.CheckOwned | conferencia.js:348-389 | the other routes are cleaned first, then the selected one reads the code |
| App.ConferenciaApp.ConferirAt | conferencia.js:343-389 | resolve the owner, clean the other routes only when the owner is the selected route, then read |
| App.ConferenciaApp.ConferirId | conferencia.js:335-401 | `conferirId` on the live objects moves the state as `Conferir` says; the alarm answer is `ConferirAlerts` |
| App.ConferenciaApp.SetCurrentRoute | conferencia.js:128-138 | the state moves as `Registry.SetCurrentRoute` says; the answer is whether the route exists |
| App.ConferenciaApp.DeleteRoute | conferencia.js:87-93 | the state moves as `Registry.DeleteRoute` says |
| App.ConferenciaApp.RemoveRoute | conferencia.js:89 | the key leaves the map and the order; the selection and the flag stay |
| App.ConferenciaApp.SetCurrent | conferencia.js:90 | only the selection changes |
| App.ConferenciaApp.ClearAllRoutes | conferencia.js:95-100 | the state moves as `Registry.ClearAllRoutes` says |
| App.ConferenciaApp.AbsorbInto | conferencia.js:431-459 | only the stored route changes, as `Absorb` says |
| App.ConferenciaApp.EnterInto | conferencia.js:818-833 | only the stored route changes, as `Enter` says |
| App.ConferenciaApp.AddRoute | conferencia.js:460 | the new object is stored under its id at the end of the order (`Store`) |
| App.ConferenciaApp.ImportIntoStored | conferencia.js:430-461 | an import block for a stored route moves the state as `ImportBlock` says; the answer is whether it had ids |
| App.ConferenciaApp.ImportIntoNew | conferencia.js:430-461 | an import block for an unknown route moves the state as `ImportBlock` says; only new objects are added |
| App.ConferenciaApp.ImportRoute | conferencia.js:426-462 | one block of the import loop, as `ImportBlock` says |
| App.ConferenciaApp.ImportRoutes | conferencia.js:424-466 | the import loop moves the state as `ImportAll` says and returns `ImportedCount` |
| App.ConferenciaApp.SaveIntoStored | conferencia.js:818-852 | manual entry into a stored route: the route is merged and stored in place |
| App.ConferenciaApp.SaveIntoNew | conferencia.js:818-852 | manual entry for a new id: a new route is merged and stored at the end of the order |
| App.ConferenciaApp.SubmitManual | conferencia.js:800-852 | the handler moves the state as `ManualEntry` says, or changes nothing and answers its refusal |
| App.ConferenciaApp.ReadLines | conferencia.js:945-956 | the reading loop over the data lines leaves the state as `Ingest` says |
| App.ConferenciaApp.ReadLineAt | conferencia.js:946-955 | one turn of the loop is one `IngestStep` |
| App.ConferenciaApp.SetBatchFlag | conferencia.js:923 | only the CSV flag changes |
| App.ConferenciaApp.ReadBatch | conferencia.js:923-958 | flag set, every data line read, flag cleared |
| App.ConferenciaApp.CheckCsv | conferencia.js:923-958 | the file handler moves the state as the corrected `RunBatch` says and answers its error |

## Left out

- DOM rendering, select boxes, focus and all event wiring other than what the handlers compute
  (143-246, 696-979): presentation only.
- Audio playback: the model returns only whether the alarm is requested (`ConferirAlerts`).
- `localStorage` and JSON persistence (23-85, 98): I/O. Only the migration rule at 49-52 is kept
  (`Routes.Migrate`).
- HTML scraping in `importRoutesFromHtml` (407-452): best-effort regex extraction. Its output,
  one `ImportedRoute` per block, is the model's input. A block whose route id the regex cannot
  match is skipped by the source, so no such block reaches the model.
- A block without ids for an unknown route: the source builds a fresh route and never stores
  it, so the model does not build one.
- `Date.now()`: passed in as `now`. The CSV batch takes a `clock` giving each line's read time.
- `parseDateSafe`, date and time formatting, and the UTC columns (511-566, 579-586): they
  depend on time zones. A row keeps the raw timestamp instead.
- Blob and file downloads, `FileReader`, jsPDF and SheetJS (598-607, 669-686, 740-785, 925-962):
  foreign libraries and I/O.
- `Csv.RunBatch`, `Csv.BatchAsWritten` and `App.ConferenciaApp.CheckCsv` treat setting the flag
  and reading the lines as one atomic step. In the source the flag is set at 923 when the button
  is clicked, but the lines are read later, in the `reader.onload` callback (928) that
  `readAsText` (962) starts. A barcode read in between runs 895-897 and clears the flag, so the
  batch's reads then request the alarm. The model does not capture this interleaving.
- The two checks at 911-921 before the file is read (no route selected, no file chosen): they
  happen outside the batch.
- The bar width (196): presentation only.
- `Report.ProgressPercent` computes the floor of `100 * conferidos / total` exactly. The
  source computes `(conferidos / total) * 100` in floating point (194) before `Math.floor`
  (196), so its label can be one lower: 29 of 100 gives 28.999999999999996, shown as 28%,
  where the model gives 29.
- `Report.RouteOrder`, `Report.Column`, `Report.SortIds`: `localeCompare` is modelled as
  code-point order. This agrees with it on digit ids.
- The global-state draft pasted over the per-route code: it contradicts the per-route code.
  It consists of the fields at 9-18 and of lines 357-361, 493-509, 519-525, 636-642, 644-647,
  653, 687-690, 720-733, 775-778, 807-811, 813-817, 820-829, 834-850, 853-854, 857-862 and
  864-891. The per-route lines among them are modelled: 643 and 648-652 by `Report.Column`,
  and 805-806, 812, 818-819, 831-833 and 851-852 by `Registry.ManualEntry`,
  `App.Route.Enter`, `App.NewManualRoute`, `App.ConferenciaApp.SaveIntoStored` and
  `App.ConferenciaApp.SaveIntoNew`. The per-route lines 855-856 and 863 save, redraw and
  show a message, which is I/O.
- `Csv.BatchAsWritten`: the `Arquivo CSV vazio.` error at 931-935 can never fire, because
  `split` always returns at least one line. The model keeps the branch, and `Csv.RunBatch`
  proves the error cannot occur.

## Findings

| source | as written | input that shows it | evidently intended | confidence | as-written member | corrected member |
|---|---|---|---|---|---|---|
| conferencia.js:937-958 | `viaCsv` is set to true at 923. The handler returns at 939 when the header has no `text`/`texto`/`id` column, so `viaCsv = false` at 958 never runs. | A CSV whose first line is `date,time,format`. Afterwards the application state still has `viaCsv` set, and any `conferirId` run before something clears the flag requests no alarm. The barcode handler clears it at 897 before its own reads. | The flag is scoped to the batch and cleared on every way out, so a rejected file leaves the application as it was. | medium: not executed; the barcode handler hides the effect on its own reads | Csv.RejectedFileKeepsBatchFlag | Csv.RunBatch |

=== FILE: app.dfy ===
/** The application object as the page holds it: a map of live route objects whose
    sets and maps are updated in place, the iteration order of that map, the selected
    route and the CSV flag. Every method is proved to do to the state what the
    corresponding function of `Routes`, `Registry` or `Csv` describes. */
module App {
  import opened Wrappers
  import opened Strings
  import opened Routes
  import opened Registry
  import opened Csv

  /** One route object, as `makeEmptyRoute` builds it. */
  class Route {
    const routeId: string
    var cluster: string
    var destinationFacilityId: string
    var destinationFacilityName: string
    var timestamps: map<string, int>
    var ids: set<string>
    var faltantes: set<string>
    var conferidos: set<string>
    var foraDeRota: set<string>
    var duplicados: map<string, int>
    var totalInicial: nat

    /** The route's current contents as a value. */
    function State(): RouteState
      reads this
    {
      RouteState(routeId, cluster, destinationFacilityId, destinationFacilityName, timestamps,
                 ids, faltantes, conferidos, foraDeRota, duplicados, totalInicial)
    }

    /** `makeEmptyRoute(routeId)`. */
    constructor (routeId: string)
      ensures State() == EmptyRoute(routeId)
    {
      this.routeId := routeId;
      cluster := "";
      destinationFacilityId := "";
      destinationFacilityName := "";
      timestamps := map[];
      ids := {};
      faltantes := {};
      conferidos := {};
      foraDeRota := {};
      duplicados := map[];
      totalInicial := 0;
    }

    /** The part of `conferirId` that reads `codigo` into this route, testing the
        branches in the source's order; answers how the read was classified. */
    method Check(codigo: string, now: int) returns (outcome: Outcome)
      modifies this
      ensures State() == Observe(old(State()), codigo, now)
      ensures outcome == Classify(old(State()), codigo)
    {
      if codigo in conferidos {
        var count := if codigo in duplicados && duplicados[codigo] != 0 then duplicados[codigo] else 1;
        duplicados := duplicados[codigo := count + 1];
        timestamps := timestamps[codigo := now];
        return Duplicate;
      }
      if codigo in faltantes {
        faltantes := faltantes - {codigo};
        conferidos := conferidos + {codigo};
        timestamps := timestamps[codigo := now];
        return Verified;
      }
      if codigo in foraDeRota {
        var count := if codigo in duplicados && duplicados[codigo] != 0 then duplicados[codigo] else 1;
        duplicados := duplicados[codigo := count + 1];
        timestamps := timestamps[codigo := now];
        outcome := Duplicate;
      } else {
        foraDeRota := foraDeRota + {codigo};
        timestamps := timestamps[codigo := now];
        outcome := OffRoute;
      }
    }

    /** The body of `cleanupIdFromOtherRoutes` for one route that is not the target. */
    method RemoveStale(id: string)
      modifies this
      ensures State() == CleanupState(old(State()), id)
    {
      var changed := false;
      if id in foraDeRota {
        foraDeRota := foraDeRota - {id};
        changed := true;
      }
      if id in duplicados {
        duplicados := duplicados - {id};
        changed := true;
      }
      if changed {
        var stillRelevant := id in conferidos || id in faltantes || id in ids || id in foraDeRota || id in duplicados;
        if !stillRelevant {
          timestamps := timestamps - {id};
        }
      }
    }

    /** The merge loop of import and manual entry, then `totalInicial = ids.size`. */
    method AddIds(xs: seq<string>)
      modifies this
      ensures State() == Merge(old(State()), xs)
    {
      for i := 0 to |xs|
        invariant ids == old(ids) + Elems(xs[..i])
        invariant faltantes == old(faltantes) + (Elems(xs[..i]) - conferidos)
        invariant State() == old(State()).(ids := ids, faltantes := faltantes)
      {
        assert Elems(xs[..i + 1]) == Elems(xs[..i]) + {xs[i]} by {
          assert xs[..i + 1] == xs[..i] + [xs[i]];
        }
        ids := ids + {xs[i]};
        if xs[i] !in conferidos {
          faltantes := faltantes + {xs[i]};
        }
      }
      assert xs[..|xs|] == xs;
      totalInicial := |ids|;
    }

    /** The load-time fallback: an empty `faltantes` beside a non-empty `ids` becomes a
        copy of `ids` from which each verified id is deleted in turn. */
    method RebuildFaltantes()
      modifies this
      ensures State() == Migrate(old(State()))
    {
      if |faltantes| == 0 && |ids| != 0 {
        faltantes := ids;
        var pending := conferidos;
        while pending != {}
          invariant pending <= conferidos
          invariant faltantes == ids - (conferidos - pending)
          invariant State() == old(State()).(faltantes := faltantes)
          decreases |pending|
        {
          var c :| c in pending;
          faltantes := faltantes - {c};
          pending := pending - {c};
        }
      }
    }

    /** The manual form on this route: the cluster when one was typed, then the ids. */
    method Enter(cluster: string, xs: seq<string>)
      modifies this
      ensures var s := old(State());
        State() == Merge(if cluster != "" then s.(cluster := cluster) else s, xs)
    {
      if cluster != "" {
        this.cluster := cluster;
      }
      AddIds(xs);
    }

    /** One import block on this route: its cluster and facility, then its ids when it
        has any. */
    method Absorb(b: ImportedRoute)
      modifies this
      ensures State() == if |b.ids| == 0 then Annotate(old(State()), b)
                         else Merge(Annotate(old(State()), b), b.ids)
    {
      Describe(b);
      if |b.ids| != 0 {
        AddIds(b.ids);
      }
    }

    /** The cluster and facility an import block carries, set on the live route. */
    method Describe(b: ImportedRoute)
      modifies this
      ensures State() == Annotate(old(State()), b)
    {
      if b.cluster.Some? {
        cluster := b.cluster.value;
      }
      if b.facility.Some? {
        destinationFacilityId := b.facility.value.0;
        destinationFacilityName := b.facility.value.1;
      }
    }
  }

  /** The routes after the cleaning loop has visited the keys in `done`. */
  function CleanedUpTo(routes: map<string, RouteState>, id: string, target: string, done: seq<string>): map<string, RouteState>
  {
    map k | k in routes :: if k in done && k != target then CleanupState(routes[k], id) else routes[k]
  }

  /** Extending a prefix by one element: a step of the cleaning loop's invariant, not a
      property of the tool. */
  lemma PrefixStep(xs: seq<string>, i: nat)
    requires i < |xs|
    ensures xs[..i + 1] == xs[..i] + [xs[i]]
    ensures NoDup(xs) ==> xs[i] !in xs[..i]
  {
  }

  /** The cleaning loop visits one more key: every key but the target is cleaned. */
  lemma CleanedStep(routes: map<string, RouteState>, id: string, target: string, done: seq<string>, k: string)
    requires k in routes && k !in done
    ensures CleanedUpTo(routes, id, target, done + [k])
            == if k != target then CleanedUpTo(routes, id, target, done)[k := CleanupState(routes[k], id)]
               else CleanedUpTo(routes, id, target, done)
  {
  }

  /** Before the loop nothing is cleaned; once it has visited every key, the routes are
      those `cleanupIdFromOtherRoutes` describes. */
  lemma CleanedAll(routes: map<string, RouteState>, id: string, target: string, done: seq<string>)
    requires forall k :: k in routes ==> k in done
    ensures CleanedUpTo(routes, id, target, done) == CleanupOthers(routes, id, target)
    ensures CleanedUpTo(routes, id, target, []) == routes
  {
  }

  /** A new route for manual entry: `makeEmptyRoute`, the cluster when one was typed,
      then the ids. */
  method NewManualRoute(k: string, cluster: string, xs: seq<string>) returns (route: Route)
    ensures fresh(route) && route.routeId == k
    ensures var s := EmptyRoute(k);
      route.State() == Merge(if cluster != "" then s.(cluster := cluster) else s, xs)
  {
    route := new Route(k);
    route.Enter(cluster, xs);
  }

  /** A route for an import block with ids: `makeEmptyRoute`, described by the block,
      then the ids. A block without ids leaves its fresh route unstored and unseen, so
      the model does not build one. */
  method NewImportedRoute(b: ImportedRoute) returns (route: Route)
    ensures fresh(route) && route.routeId == b.routeId
    ensures route.State() == Merge(Annotate(EmptyRoute(b.routeId), b), b.ids)
  {
    route := new Route(b.routeId);
    route.Describe(b);
    route.AddIds(b.ids);
  }

  /** The `ConferenciaApp` object. `order` is the insertion order of `routes`, the order
      in which the `for ... of this.routes.entries()` loops visit them. */
  class ConferenciaApp {
    var routes: map<string, Route>
    var order: seq<string>
    var currentRouteId: Option<string>
    var viaCsv: bool

    /** Every stored route's contents. */
    function States(): map<string, RouteState>
      reads this, routes.Values
    {
      map k | k in routes :: routes[k].State()
    }

    /** The whole application as a value. */
    function Snapshot(): AppState
      reads this, routes.Values
    {
      AppState(order, States(), currentRouteId, viaCsv)
    }

    /** The registry invariant: `order` lists each key once, and each route object
        carries its own key as its id, so distinct keys hold distinct objects. Route ids
        are constants, so no update of a route's sets can break it. */
    ghost predicate Valid()
      reads this
    {
      && NoDup(order)
      && (forall k :: k in routes <==> k in order)
      && (forall k :: k in routes ==> routes[k].routeId == k)
    }

    /** The invariant is the registry's well-formedness, seen on the live objects. */
    lemma ValidWellFormed()
      requires Valid()
      ensures WellFormed(Snapshot())
    {
    }

    constructor ()
      ensures Valid()
      ensures Snapshot() == AppState([], map[], None, false)
    {
      routes := map[];
      order := [];
      currentRouteId := None;
      viaCsv := false;
    }

    /** One route of the cleaning loop; the other routes are different objects. */
    method CleanRoute(k: string, id: string)
      requires Valid() && k in routes
      modifies routes[k]
      ensures States() == old(States())[k := CleanupState(old(States())[k], id)]
    {
      routes[k].RemoveStale(id);
    }

    /** `cleanupIdFromOtherRoutes(id, target)`: every route but `target`, in map order,
        drops its stale off-route and duplicate bookkeeping for `id`. */
    method CleanupIdFromOtherRoutes(id: string, target: string)
      requires Valid()
      modifies routes.Values
      ensures States() == CleanupOthers(old(States()), id, target)
    {
      ghost var before := States();
      CleanedAll(before, id, target, order);
      for i := 0 to |order|
        invariant States() == CleanedUpTo(before, id, target, order[..i])
      {
        var k := order[i];
        PrefixStep(order, i);
        assert k in before;
        CleanedStep(before, id, target, order[..i], k);
        if k != target {
          CleanRoute(k, id);
        }
      }
      assert order[..|order|] == order;
    }

    /** The selected route reads a code; the other routes are different objects. */
    method CheckRoute(k: string, codigo: string, now: int) returns (outcome: Outcome)
      requires Valid() && k in routes
      modifies routes[k]
      ensures States() == old(States())[k := Observe(old(States())[k], codigo, now)]
      ensures outcome == Classify(old(States())[k], codigo)
    {
      outcome := routes[k].Check(codigo, now);
    }

    /** A read of a code the selected route owns: the other routes forget it first. */
    method CheckOwned(cur: string, codigo: string, now: int) returns (outcome: Outcome)
      requires Valid() && cur in routes
      modifies routes.Values
      ensures States() == CleanupOthers(old(States()), codigo, cur)[cur := Observe(old(States())[cur], codigo, now)]
      ensures outcome == Classify(old(States())[cur], codigo)
    {
      ghost var a := States();
      CleanupIdFromOtherRoutes(codigo, cur);
      assert States()[cur] == a[cur];
      outcome := CheckRoute(cur, codigo, now);
    }

    /** The selected route `cur` reads a code: the owner is resolved, and when it is
        `cur` the other routes forget the code first. */
    method ConferirAt(cur: string, codigo: string, now: int) returns (outcome: Outcome)
      requires Valid() && cur in routes
      modifies routes.Values
      ensures var rs := if Resolve(order, old(States()), codigo) == Some(cur)
                        then CleanupOthers(old(States()), codigo, cur) else old(States());
        States() == rs[cur := Observe(rs[cur], codigo, now)]
      ensures outcome == Classify(old(States())[cur], codigo)
    {
      var owner := Resolve(order, States(), codigo);
      if owner == Some(cur) {
        outcome := CheckOwned(cur, codigo, now);
      } else {
        outcome := CheckRoute(cur, codigo, now);
      }
    }

    /** `conferirId(codigo)` at time `now`; answers whether the alarm sounds. */
    method ConferirId(codigo: string, now: int) returns (alert: bool)
      requires Valid()
      modifies routes.Values
      ensures Snapshot() == Conferir(old(Snapshot()), codigo, now)
      ensures alert == ConferirAlerts(old(Snapshot()), codigo)
    {
      ghost var a := Snapshot();
      if currentRouteId.None? || currentRouteId.value == "" || currentRouteId.value !in routes || codigo == "" {
        return false;
      }
      var cur := currentRouteId.value;
      assert CurrentKey(a) == Some(cur);
      var outcome := ConferirAt(cur, codigo, now);
      assert States() == Conferir(a, codigo, now).routes;
      alert := outcome != Verified && !viaCsv;
    }

    /** `setCurrentRoute(routeId)`: answers whether the route exists (the source shows
        "Rota não encontrada." when it does not). */
    method SetCurrentRoute(routeId: string) returns (found: bool)
      requires Valid()
      modifies this
      ensures Valid()
      ensures Snapshot() == Registry.SetCurrentRoute(old(Snapshot()), routeId)
      ensures found <==> routeId in old(Snapshot()).routes
    {
      found := routeId in routes;
      if found {
        currentRouteId := Some(routeId);
      }
    }

    /** `deleteRoute(routeId)`. */
    method DeleteRoute(routeId: string)
      requires Valid()
      modifies this
      ensures Valid()
      ensures Snapshot() == Registry.DeleteRoute(old(Snapshot()), routeId)
    {
      if routeId == "" {
        return;
      }
      RemoveRoute(routeId);
      if currentRouteId == Some(routeId) {
        SetCurrent(None);
      }
    }

    /** `routes.delete(routeId)`: the key leaves the map and the iteration order. */
    method RemoveRoute(routeId: string)
      requires Valid()
      modifies this
      ensures Valid() && States() == old(States()) - {routeId}
      ensures order == Without(old(order), routeId)
      ensures currentRouteId == old(currentRouteId) && viaCsv == old(viaCsv)
    {
      ghost var before := States();
      routes := routes - {routeId};
      order := Without(order, routeId);
      assert States() == before - {routeId};
    }

    /** `this.currentRouteId = v`. */
    method SetCurrent(v: Option<string>)
      requires Valid()
      modifies this
      ensures Valid() && routes == old(routes)
      ensures Snapshot() == old(Snapshot()).(currentRouteId := v)
    {
      ghost var before := States();
      currentRouteId := v;
      assert States() == before;
    }

    /** `clearAllRoutes()`. */
    method ClearAllRoutes()
      requires Valid()
      modifies this
      ensures Valid()
      ensures Snapshot() == Registry.ClearAllRoutes(old(Snapshot()))
    {
      routes := map[];
      order := [];
      currentRouteId := None;
    }

    /** A stored route takes an import block. */
    method AbsorbInto(k: string, b: ImportedRoute)
      requires Valid() && k in routes
      modifies routes[k]
      ensures States() == old(States())[k := if |b.ids| == 0 then Annotate(old(States())[k], b)
                                              else Merge(Annotate(old(States())[k], b), b.ids)]
    {
      routes[k].Absorb(b);
    }

    /** A stored route takes the manual form. */
    method EnterInto(k: string, cluster: string, xs: seq<string>)
      requires Valid() && k in routes
      modifies routes[k]
      ensures var s := old(States())[k];
        States() == old(States())[k := Merge(if cluster != "" then s.(cluster := cluster) else s, xs)]
    {
      routes[k].Enter(cluster, xs);
    }

    /** `routes.set(route.routeId, route)` for a route not stored yet: it goes last in
        the iteration order. */
    method AddRoute(route: Route)
      requires Valid() && route.routeId !in routes
      modifies this
      ensures Valid()
      ensures routes == old(routes)[route.routeId := route] && order == old(order) + [route.routeId]
      ensures Snapshot() == Store(old(Snapshot()), route.routeId, route.State())
    {
      ghost var before := States();
      ghost var s := route.State();
      routes := routes[route.routeId := route];
      order := order + [route.routeId];
      assert route.State() == s;
      assert States() == before[route.routeId := s];
    }

    /** An import block for a stored route: the live object takes the block's cluster
        and facility, then its ids if it has any. */
    method ImportIntoStored(b: ImportedRoute) returns (imported: bool)
      requires Valid() && b.routeId in routes
      modifies routes[b.routeId]
      ensures Snapshot() == ImportBlock(old(Snapshot()), b)
      ensures imported == Imported(b)
    {
      AbsorbInto(b.routeId, b);
      imported := |b.ids| != 0;
    }

    /** An import block for a new route: built from `makeEmptyRoute`, and stored only if
        the block has ids. */
    method ImportIntoNew(b: ImportedRoute) returns (imported: bool)
      requires Valid() && b.routeId !in routes
      modifies this
      ensures Valid()
      ensures Snapshot() == ImportBlock(old(Snapshot()), b)
      ensures imported == Imported(b)
      ensures forall r :: r in routes.Values ==> r in old(routes.Values) || fresh(r)
    {
      if |b.ids| == 0 {
        return false;
      }
      ghost var a := Snapshot();
      ImportNewBlock(a, b);
      var route := NewImportedRoute(b);
      assert Snapshot() == a;
      AddRoute(route);
      imported := true;
    }

    /** One block of `importRoutesFromHtml`: answers whether it counted as imported. */
    method ImportRoute(b: ImportedRoute) returns (imported: bool)
      requires Valid()
      modifies this, routes.Values
      ensures Valid()
      ensures Snapshot() == ImportBlock(old(Snapshot()), b)
      ensures imported == Imported(b)
      ensures forall r :: r in routes.Values ==> r in old(routes.Values) || fresh(r)
    {
      if b.routeId in routes {
        imported := ImportIntoStored(b);
      } else {
        imported := ImportIntoNew(b);
      }
    }

    /** `importRoutesFromHtml` after extraction: answers how many blocks were imported. */
    method ImportRoutes(blocks: seq<ImportedRoute>) returns (count: nat)
      requires Valid()
      modifies this, routes.Values
      ensures Valid()
      ensures Snapshot() == ImportAll(old(Snapshot()), blocks)
      ensures count == ImportedCount(blocks)
    {
      count := 0;
      ghost var start := Snapshot();
      for i := 0 to |blocks|
        invariant Valid()
        invariant Snapshot() == ImportAll(start, blocks[..i])
        invariant count == ImportedCount(blocks[..i])
        invariant forall r :: r in routes.Values ==> r in old(routes.Values) || fresh(r)
      {
        ImportAllStep(start, blocks, i);
        var ok := ImportRoute(blocks[i]);
        if ok {
          count := count + 1;
        }
      }
      assert blocks[..|blocks|] == blocks;
    }

    /** Manual entry into a stored route: a non-empty cluster replaces the old one, then
        the ids are merged. */
    method SaveIntoStored(k: string, cluster: string, xs: seq<string>)
      requires Valid() && k in routes
      modifies routes[k]
      ensures var s := old(States())[k];
        Snapshot() == Store(old(Snapshot()), k, Merge(if cluster != "" then s.(cluster := cluster) else s, xs))
    {
      EnterInto(k, cluster, xs);
    }

    /** Manual entry of a new route, built from `makeEmptyRoute` and stored last. */
    method SaveIntoNew(k: string, cluster: string, xs: seq<string>)
      requires Valid() && k !in routes
      modifies this
      ensures Valid()
      ensures var s := EmptyRoute(k);
        Snapshot() == Store(old(Snapshot()), k, Merge(if cluster != "" then s.(cluster := cluster) else s, xs))
    {
      ghost var a := Snapshot();
      var route := NewManualRoute(k, cluster, xs);
      assert Snapshot() == a;
      AddRoute(route);
    }

    /** The `#submit-manual` handler: answers the refusal, if any. */
    method SubmitManual(rawRouteId: string, rawCluster: string, text: string) returns (err: Option<ManualError>)
      requires Valid()
      modifies this, routes.Values
      ensures Valid()
      ensures ManualEntry(old(Snapshot()), rawRouteId, rawCluster, text).Success? ==>
                err.None? && Snapshot() == ManualEntry(old(Snapshot()), rawRouteId, rawCluster, text).value
      ensures ManualEntry(old(Snapshot()), rawRouteId, rawCluster, text).Failure? ==>
                err == Some(ManualEntry(old(Snapshot()), rawRouteId, rawCluster, text).error)
                && Snapshot() == old(Snapshot())
    {
      var routeId := Trim(rawRouteId);
      if routeId == "" {
        return Some(MissingRouteId);
      }
      var cluster := Trim(rawCluster);
      var manualIds := Tokens(text);
      if |manualIds| == 0 {
        return Some(NoValidIds);
      }
      if routeId in routes {
        SaveIntoStored(routeId, cluster, manualIds);
      } else {
        SaveIntoNew(routeId, cluster, manualIds);
      }
      err := None;
    }

    /** The reading loop of the `#check-csv` callback: every data line's identifier, if
        it has one, goes through `conferirId`, the i-th line at `clock(i)`. */
    method ReadLines(lines: seq<string>, col: nat, clock: nat -> int)
      requires Valid() && |lines| >= 1
      modifies routes.Values
      ensures Snapshot() == Ingest(old(Snapshot()), lines, col, clock, |lines|)
    {
      ghost var start := Snapshot();
      for i := 1 to |lines|
        invariant Valid() && routes == old(routes)
        invariant Snapshot() == Ingest(start, lines, col, clock, i)
      {
        ReadLineAt(start, lines, col, clock, i);
      }
    }

    /** The `i`-th line of the reading loop, read at time `clock(i)`. */
    method ReadLineAt(ghost start: AppState, lines: seq<string>, col: nat, clock: nat -> int, i: nat)
      requires Valid() && 1 <= i < |lines|
      requires Snapshot() == Ingest(start, lines, col, clock, i)
      modifies routes.Values
      ensures Snapshot() == Ingest(start, lines, col, clock, i + 1)
    {
      IngestStep(start, lines, col, clock, i);
      var code := LineCode(lines[i], col);
      if code.Some? {
        var _ := ConferirId(code.value, clock(i));
      }
    }

    /** `this.viaCsv = v`. */
    method SetBatchFlag(v: bool)
      requires Valid()
      modifies this
      ensures Valid() && routes == old(routes)
      ensures Snapshot() == old(Snapshot()).(viaCsv := v)
    {
      ghost var before := States();
      viaCsv := v;
      assert States() == before;
    }

    /** An accepted file: the flag is set for the batch, every data line is read, and
        the flag is cleared afterwards. */
    method ReadBatch(lines: seq<string>, col: nat, clock: nat -> int)
      requires Valid() && |lines| >= 1
      modifies this, routes.Values
      ensures Valid()
      ensures Snapshot() == Ingest(old(Snapshot()).(viaCsv := true), lines, col, clock, |lines|).(viaCsv := false)
    {
      SetBatchFlag(true);
      ReadLines(lines, col, clock);
      SetBatchFlag(false);
    }

    /** The `#check-csv` reader callback on the file's text, with the batch flag cleared
        on every way out. */
    method CheckCsv(text: string, clock: nat -> int) returns (error: Option<CsvError>)
      requires Valid()
      modifies this, routes.Values
      ensures Valid()
      ensures Snapshot() == RunBatch(old(Snapshot()), text, clock).state
      ensures error == RunBatch(old(Snapshot()), text, clock).error
    {
      var lines := Lines(text);
      var textCol := FindTextColumn(SplitOn(lines[0], ','), 0);
      if textCol.None? {
        SetBatchFlag(false);
        return Some(NoTextColumn);
      }
      ReadBatch(lines, textCol.value, clock);
      error := None;
    }
  }
}

=== FILE: csv.dfy ===
/** Checking a route against a scanner's CSV export: the file is cut into lines, the
    header names the column holding the scanned text, and each later line's field is
    un-quoted, normalised and read as if scanned, with the alarm silenced for the batch. */
module Csv {
  import opened Wrappers
  import opened Strings
  import opened Normalizer
  import opened Routes
  import opened Registry

  // ---------------------------------------------------------------------------
  // Lines and fields

  /** A line without the carriage return that ended it. */
  function DropCR(p: string): (r: string)
    ensures |p| > 0 && p[|p| - 1] == '\r' ==> r + "\r" == p
    ensures |p| == 0 || p[|p| - 1] != '\r' ==> r == p
    ensures forall c :: c in r ==> c in p
  {
    if |p| > 0 && p[|p| - 1] == '\r' then p[..|p| - 1] else p
  }

  /** `text.split(/\r?\n/)`: the pieces between line feeds, each one that a line feed
      ended losing a carriage return just before it. Never empty. */
  function Lines(text: string): (r: seq<string>)
    ensures |r| == |SplitOn(text, '\n')| >= 1
    ensures forall i :: 0 <= i < |r| - 1 ==> r[i] == DropCR(SplitOn(text, '\n')[i])
    ensures r[|r| - 1] == SplitOn(text, '\n')[|r| - 1]
    ensures forall i :: 0 <= i < |r| ==> '\n' !in r[i]
  {
    var parts := SplitOn(text, '\n');
    seq(|parts|, i requires 0 <= i < |parts| => if i < |parts| - 1 then DropCR(parts[i]) else parts[i])
  }

  /** `/(text|texto|id)/i.test(h)`; `texto` needs no test of its own, as it contains `text`. */
  predicate IsTextHeader(h: string) {
    ContainsCI(h, "text") || ContainsCI(h, "id")
  }

  /** `header.findIndex(...)` from position `from`: the leftmost matching column. */
  function FindTextColumn(cells: seq<string>, from: nat): (r: Option<nat>)
    requires from <= |cells|
    ensures r.Some? ==> from <= r.value < |cells| && IsTextHeader(cells[r.value])
    ensures r.Some? ==> forall j :: from <= j < r.value ==> !IsTextHeader(cells[j])
    ensures r.None? ==> forall j :: from <= j < |cells| ==> !IsTextHeader(cells[j])
    decreases |cells| - from
  {
    if from == |cells| then None
    else if IsTextHeader(cells[from]) then Some(from)
    else FindTextColumn(cells, from + 1)
  }

  /** `.replace(/^"|"$/g, '')`: one quote removed from the front and one from the back. */
  function Unquote(s: string): (r: string)
    ensures |s| >= 2 && s[0] == '"' && s[|s| - 1] == '"' ==> r == s[1..|s| - 1]
    ensures |s| >= 1 && s[0] == '"' && (|s| == 1 || s[|s| - 1] != '"') ==> r == s[1..]
    ensures |s| >= 1 && s[0] != '"' && s[|s| - 1] == '"' ==> r == s[..|s| - 1]
    ensures (|s| == 0 || s[0] != '"') && (|s| == 0 || s[|s| - 1] != '"') ==> r == s
  {
    var front := if |s| > 0 && s[0] == '"' then s[1..] else s;
    if |front| > 0 && front[|front| - 1] == '"' then front[..|front| - 1] else front
  }

  /** No two quotes in a row anywhere in `s`. */
  predicate NoDoubledQuote(s: string) {
    forall i :: 1 <= i < |s| ==> !(s[i - 1] == '"' && s[i] == '"')
  }

  /** `.replace(/""/g, '"')`: each doubled quote, left to right, becomes one. */
  function Unescape(s: string): (r: string)
    ensures |r| <= |s|
    ensures s == "\"\"" ==> r == "\""
    ensures |s| == 1 ==> r == s
    ensures NoDoubledQuote(s) ==> r == s
    decreases |s|
  {
    if |s| >= 2 && s[0] == '"' && s[1] == '"' then "\"" + Unescape(s[2..])
    else if |s| == 0 then []
    else
      assert NoDoubledQuote(s) ==> NoDoubledQuote(s[1..]);
      [s[0]] + Unescape(s[1..])
  }

  /** CSV quoting of a field's text: every quote doubled. */
  function Escape(s: string): (r: string)
    ensures |r| >= |s|
    ensures |s| == 1 ==> r == (if s[0] == '"' then "\"\"" else s)
    ensures '"' !in s ==> r == s
    decreases |s|
  {
    if |s| == 0 then [] else (if s[0] == '"' then "\"\"" else [s[0]]) + Escape(s[1..])
  }

  /** Escaping a concatenation escapes each part: with the one-character case, every quote
      is doubled and every other character kept, in order. */
  lemma {:induction false} EscapeAppend(x: string, y: string)
    ensures Escape(x + y) == Escape(x) + Escape(y)
    decreases |x|
  {
    if |x| > 0 {
      assert (x + y)[1..] == x[1..] + y;
      EscapeAppend(x[1..], y);
    } else {
      assert x + y == y;
    }
  }

  /** Un-escaping undoes CSV quote doubling, so a quoted field comes back as written. */
  lemma {:induction false} UnescapeEscape(s: string)
    ensures Unescape(Escape(s)) == s
    decreases |s|
  {
    if |s| > 0 {
      UnescapeEscape(s[1..]);
      var rest := Escape(s[1..]);
      if s[0] == '"' {
        assert Escape(s) == "\"\"" + rest;
        assert ("\"\"" + rest)[2..] == rest;
      } else {
        assert Escape(s) == [s[0]] + rest;
        assert ([s[0]] + rest)[1..] == rest;
        if |rest| > 0 {
          assert Escape(s)[1] == rest[0];
        }
      }
    }
  }

  /** A field written as `"` + escaped text + `"` is read back as the text. */
  lemma QuotedFieldRoundTrip(s: string)
    ensures Unescape(Unquote("\"" + Escape(s) + "\"")) == s
  {
    var q := "\"" + Escape(s) + "\"";
    assert q[1..|q| - 1] == Escape(s);
    UnescapeEscape(s);
  }

  /** The cleaned field in column `col` of a data line, or nothing for a blank line or a
      line with too few columns. */
  function Field(line: string, col: nat): (r: Option<string>)
    ensures r.None? <==> Trim(line) == "" || Count(line, ',') < col
    ensures r.Some? ==> col < |SplitOn(line, ',')| && r.value == Unescape(Unquote(Trim(SplitOn(line, ',')[col])))
  {
    SplitCount(line, ',');
    if Trim(line) == "" then None
    else
      var cells := SplitOn(line, ',');
      if |cells| <= col then None
      else Some(Unescape(Unquote(Trim(cells[col]))))
  }

  /** The identifier a data line contributes, if any. */
  function LineCode(line: string, col: nat): (r: Option<string>)
    ensures r.Some? ==> |r.value| == IdLength && AllDigits(r.value)
    ensures Field(line, col).None? ==> r.None?
    ensures Field(line, col).Some? ==> r == Normalize(Field(line, col).value)
  {
    match Field(line, col)
    case None => None
    case Some(f) => Normalize(f)
  }

  // ---------------------------------------------------------------------------
  // The reading loop

  /** One data line at time `t`: its identifier, if it has one, goes through `conferirId`. */
  function ReadLine(a: AppState, line: string, col: nat, t: int): (b: AppState)
    ensures b.order == a.order && b.currentRouteId == a.currentRouteId && b.viaCsv == a.viaCsv
    ensures b.routes.Keys == a.routes.Keys
    ensures LineCode(line, col).None? ==> b == a
  {
    match LineCode(line, col)
    case None => a
    case Some(id) => Conferir(a, id, t)
  }

  /** The state after the data lines `lines[1..n]`: the identifiers they carry are
      scanned one after another, each at the time `clock(i)` of its line. */
  function Ingest(a: AppState, lines: seq<string>, col: nat, clock: nat -> int, n: nat): (b: AppState)
    requires 1 <= n <= |lines|
    ensures b.order == a.order && b.currentRouteId == a.currentRouteId && b.viaCsv == a.viaCsv
    ensures b.routes.Keys == a.routes.Keys
  {
    ConferirAll(a, Codes(lines, col, n), Stamps(lines, col, clock, n))
  }

  /** Reading the file line by line is that scan: one more data line is read, or
      skipped when it carries no identifier. */
  lemma IngestStep(a: AppState, lines: seq<string>, col: nat, clock: nat -> int, n: nat)
    requires 1 <= n < |lines|
    ensures Ingest(a, lines, col, clock, n + 1) == ReadLine(Ingest(a, lines, col, clock, n), lines[n], col, clock(n))
  {
    CodesStep(lines, col, clock, n + 1);
    var code := LineCode(lines[n], col);
    if code.Some? {
      ScanOne(a, Codes(lines, col, n), Stamps(lines, col, clock, n), code.value, clock(n));
    }
  }

  /** The identifiers read from `lines[1..n]`, in file order. */
  function Codes(lines: seq<string>, col: nat, n: nat): (cs: seq<string>)
    requires 1 <= n <= |lines|
    ensures |cs| <= n - 1
    ensures forall c :: c in cs ==> |c| == IdLength && AllDigits(c)
    decreases n
  {
    if n == 1 then []
    else
      var rest := Codes(lines, col, n - 1);
      match LineCode(lines[n - 1], col)
      case None => rest
      case Some(id) => rest + [id]
  }

  /** The time of each of those reads. */
  function Stamps(lines: seq<string>, col: nat, clock: nat -> int, n: nat): (ts: seq<int>)
    requires 1 <= n <= |lines|
    ensures |ts| == |Codes(lines, col, n)|
    decreases n
  {
    if n == 1 then []
    else
      var rest := Stamps(lines, col, clock, n - 1);
      match LineCode(lines[n - 1], col)
      case None => rest
      case Some(_) => rest + [clock(n - 1)]
  }

  /** One more scan, appended: one unfolding of `ConferirAll`, used by the reading loop's
      invariant. */
  lemma ScanOne(a: AppState, cs: seq<string>, ts: seq<int>, id: string, t: int)
    requires |cs| == |ts|
    ensures ConferirAll(a, cs + [id], ts + [t]) == Conferir(ConferirAll(a, cs, ts), id, t)
  {
    assert (cs + [id])[..|cs|] == cs && (ts + [t])[..|ts|] == ts;
  }

  /** One more line of the file, read or skipped: one unfolding of `Codes` and `Stamps`,
      used by the reading loop's invariant. */
  lemma CodesStep(lines: seq<string>, col: nat, clock: nat -> int, n: nat)
    requires 1 < n <= |lines|
    ensures LineCode(lines[n - 1], col).None? ==>
              Codes(lines, col, n) == Codes(lines, col, n - 1)
              && Stamps(lines, col, clock, n) == Stamps(lines, col, clock, n - 1)
    ensures LineCode(lines[n - 1], col).Some? ==>
              Codes(lines, col, n) == Codes(lines, col, n - 1) + [LineCode(lines[n - 1], col).value]
              && Stamps(lines, col, clock, n) == Stamps(lines, col, clock, n - 1) + [clock(n - 1)]
  {
  }

  /** No route ever loses disjointness while a file is read. */
  lemma IngestDisjoint(a: AppState, lines: seq<string>, col: nat, clock: nat -> int, n: nat)
    requires 1 <= n <= |lines|
    requires AllDisjoint(a.routes)
    ensures AllDisjoint(Ingest(a, lines, col, clock, n).routes)
  {
    ConferirAllDisjoint(a, Codes(lines, col, n), Stamps(lines, col, clock, n));
  }

  /** With the batch flag set, no read sounds the alarm. */
  lemma BatchReadsAreSilent(a: AppState, codigo: string)
    requires a.viaCsv
    ensures !ConferirAlerts(a, codigo)
  {
  }

  // ---------------------------------------------------------------------------
  // The whole batch

  datatype CsvError = EmptyFile | NoTextColumn

  /** The application after a batch, and the message the user got, if any. */
  datatype Batch = Batch(state: AppState, error: Option<CsvError>)

  /** The batch exactly as the click handler runs it: the flag is set before reading, and
      cleared only after the loop, so a file without a text column leaves it set. */
  function BatchAsWritten(a: AppState, text: string, clock: nat -> int): (r: Batch)
    ensures r.error.Some? ==> r.state == a.(viaCsv := true)
    ensures r.error == Some(NoTextColumn) <==> FindTextColumn(SplitOn(Lines(text)[0], ','), 0).None?
    ensures r.error.None? ==> !r.state.viaCsv
  {
    var lines := Lines(text);
    var b := a.(viaCsv := true);
    if |lines| == 0 then Batch(b, Some(EmptyFile))
    else
      match FindTextColumn(SplitOn(lines[0], ','), 0)
      case None => Batch(b, Some(NoTextColumn))
      case Some(col) => Batch(Ingest(b, lines, col, clock, |lines|).(viaCsv := false), None)
  }

  /** After a file whose header has no text column the flag meant for the batch is still
      set, so a later `conferirId` that should sound the alarm stays silent unless its
      caller clears the flag first. */
  lemma RejectedFileKeepsBatchFlag(a: AppState, text: string, clock: nat -> int, codigo: string)
    requires !a.viaCsv && CurrentKey(a).Some? && codigo != ""
    requires Classify(a.routes[CurrentKey(a).value], codigo) != Verified
    requires FindTextColumn(SplitOn(Lines(text)[0], ','), 0).None?
    ensures BatchAsWritten(a, text, clock).state == a.(viaCsv := true)
    ensures ConferirAlerts(a, codigo)
    ensures !ConferirAlerts(BatchAsWritten(a, text, clock).state, codigo)
  {
  }

  /** The batch with the flag cleared on every way out, as a scoped setting should be:
      a rejected file changes nothing at all; an accepted one reads every identifier in
      it, in order, and the flag is clear afterwards either way. */
  function RunBatch(a: AppState, text: string, clock: nat -> int): (r: Batch)
    ensures !r.state.viaCsv
    ensures r.error.Some? ==> r.state == a.(viaCsv := false)
    ensures r.error == Some(NoTextColumn) <==> FindTextColumn(SplitOn(Lines(text)[0], ','), 0).None?
    ensures r.error != Some(EmptyFile)
    ensures r.state.order == a.order && r.state.currentRouteId == a.currentRouteId
    ensures r.state.routes.Keys == a.routes.Keys
  {
    var lines := Lines(text);
    var b := a.(viaCsv := true);
    match FindTextColumn(SplitOn(lines[0], ','), 0)
    case None => Batch(a.(viaCsv := false), Some(NoTextColumn))
    case Some(col) => Batch(Ingest(b, lines, col, clock, |lines|).(viaCsv := false), None)
  }

  /** The two batches differ only in the flag they leave behind. */
  lemma RunBatchFixesOnlyTheFlag(a: AppState, text: string, clock: nat -> int)
    ensures RunBatch(a, text, clock).state == BatchAsWritten(a, text, clock).state.(viaCsv := false)
    ensures RunBatch(a, text, clock).error == BatchAsWritten(a, text, clock).error
  {
  }

  /** An accepted file leaves the routes as scanning its identifiers, silently, would,
      and keeps every route's sets disjoint. */
  lemma RunBatchIsSilentScanning(a: AppState, text: string, clock: nat -> int)
    requires FindTextColumn(SplitOn(Lines(text)[0], ','), 0).Some?
    ensures var lines := Lines(text);
      var col := FindTextColumn(SplitOn(lines[0], ','), 0).value;
      RunBatch(a, text, clock).state.routes
        == ConferirAll(a.(viaCsv := true), Codes(lines, col, |lines|), Stamps(lines, col, clock, |lines|)).routes
    ensures AllDisjoint(a.routes) ==> AllDisjoint(RunBatch(a, text, clock).state.routes)
  {
    var lines := Lines(text);
    var col := FindTextColumn(SplitOn(lines[0], ','), 0).value;
    if AllDisjoint(a.routes) {
      IngestDisjoint(a.(viaCsv := true), lines, col, clock, |lines|);
    }
  }
}

=== FILE: normalizer.dfy ===
/** `normalizarCodigo`: turns a raw scanner or CSV string into an 11-digit
    shipment identifier, or rejects it. */
module Normalizer {
  import opened Wrappers
  import opened Strings

  /** Length of a shipment identifier. */
  const IdLength: nat := 11

  /** The character class `[\u0000-\u001F\u007F-\u009F]`. */
  predicate IsControl(c: char) {
    c <= '\U{001F}' || ('\U{007F}' <= c <= '\U{009F}')
  }

  /** Every control character removed, the rest kept in order. A single character
      survives exactly when it is not a control character; StripControlsAppend shows
      that the strip works piecewise, so every other character is kept, in order. */
  function StripControls(s: string): (r: string)
    ensures |r| <= |s|
    ensures forall i :: 0 <= i < |r| ==> !IsControl(r[i])
    ensures |s| == 1 ==> r == (if IsControl(s[0]) then [] else s)
    decreases |s|
  {
    if |s| == 0 then [] else (if IsControl(s[0]) then [] else [s[0]]) + StripControls(s[1..])
  }

  /** The strip of a concatenation is the concatenation of the strips. */
  lemma {:induction false} StripControlsAppend(x: string, y: string)
    ensures StripControls(x + y) == StripControls(x) + StripControls(y)
    decreases |x|
  {
    if |x| > 0 {
      assert (x + y)[1..] == x[1..] + y;
      StripControlsAppend(x[1..], y);
    } else {
      assert x + y == y;
    }
  }

  /** `String(raw).trim()` followed by the control-character strip. */
  function Clean(raw: string): string {
    StripControls(Trim(raw))
  }

  /** The regex `4\d{10}` matches `s` at position i. */
  predicate RunAt(s: string, i: int) {
    0 <= i && i + IdLength <= |s| && s[i] == '4' && forall j :: i < j < i + IdLength ==> IsDigit(s[j])
  }

  /** Position of the leftmost match of `4\d{10}` at or after `from`. */
  function FirstRun(s: string, from: nat): (r: Option<nat>)
    ensures r.Some? ==> from <= r.value && RunAt(s, r.value)
                        && forall j :: from <= j < r.value ==> !RunAt(s, j)
    ensures r.None? ==> forall j :: from <= j ==> !RunAt(s, j)
    decreases |s| - from
  {
    if from + IdLength > |s| then None
    else if RunAt(s, from) then Some(from)
    else FirstRun(s, from + 1)
  }

  /** `s.replace(/\D/g, '')`: the digits of `s`, in order. */
  function Digits(s: string): (r: string)
    ensures |r| <= |s| && AllDigits(r)
    ensures |s| == 1 ==> r == (if IsDigit(s[0]) then s else [])
    decreases |s|
  {
    if |s| == 0 then [] else (if IsDigit(s[0]) then [s[0]] else []) + Digits(s[1..])
  }

  /** The digits of a concatenation are the digits of each part, in order: together with
      the one-character case, every digit of the input is kept and every other character
      dropped. */
  lemma {:induction false} DigitsAppend(x: string, y: string)
    ensures Digits(x + y) == Digits(x) + Digits(y)
    decreases |x|
  {
    if |x| > 0 {
      assert (x + y)[1..] == x[1..] + y;
      DigitsAppend(x[1..], y);
    } else {
      assert x + y == y;
    }
  }

  /** The search on an already cleaned string: the first `4` followed by ten digits,
      else the first eleven of all its digits, else nothing. */
  function Extract(s: string): (r: Option<string>)
    ensures r.Some? ==> |r.value| == IdLength && AllDigits(r.value)
    ensures forall i :: RunAt(s, i) && (forall j :: 0 <= j < i ==> !RunAt(s, j)) ==> r == Some(s[i..i + IdLength])
    ensures (forall i :: !RunAt(s, i)) ==>
              r == (if |Digits(s)| >= IdLength then Some(Digits(s)[..IdLength]) else None)
  {
    match FirstRun(s, 0)
    case Some(i) => Some(s[i..i + IdLength])
    case None =>
      var d := Digits(s);
      if |d| >= IdLength then Some(d[..IdLength]) else None
  }

  /** The identifier read from `raw`: nothing for an empty string, else the search on
      the cleaned string. */
  function Normalize(raw: string): (r: Option<string>)
    ensures raw == "" ==> r == None
    ensures r.Some? ==> |r.value| == IdLength && AllDigits(r.value)
    ensures raw != "" ==> forall i :: RunAt(Clean(raw), i) && (forall j :: 0 <= j < i ==> !RunAt(Clean(raw), j))
                                      ==> r == Some(Clean(raw)[i..i + IdLength])
    ensures raw != "" && (forall i :: !RunAt(Clean(raw), i)) ==>
              r == (if |Digits(Clean(raw))| >= IdLength then Some(Digits(Clean(raw))[..IdLength]) else None)
  {
    if raw == "" then None else Extract(Clean(raw))
  }

  /** A string made only of digits is its own digit string. */
  lemma {:induction false} DigitsOfDigits(s: string)
    requires AllDigits(s)
    ensures Digits(s) == s
    decreases |s|
  {
    if |s| > 0 {
      DigitsOfDigits(s[1..]);
    }
  }

  /** A string without control characters survives the strip unchanged. */
  lemma {:induction false} StripNoControls(s: string)
    requires forall i :: 0 <= i < |s| ==> !IsControl(s[i])
    ensures StripControls(s) == s
    decreases |s|
  {
    if |s| > 0 {
      StripNoControls(s[1..]);
    }
  }

  /** A digit string is left alone by the trim and the control-character strip. */
  lemma CleanDigits(t: string)
    requires AllDigits(t)
    ensures Clean(t) == t
  {
    if |t| > 0 {
      assert IsDigit(t[0]) && IsDigit(t[|t| - 1]);
    }
    TrimNoSpace(t);
    StripNoControls(t);
  }

  /** An identifier is found whole by the search. */
  lemma ExtractIdentifier(t: string)
    requires |t| == IdLength && AllDigits(t)
    ensures Extract(t) == Some(t)
  {
    assert t[0..IdLength] == t;
    if !RunAt(t, 0) {
      assert forall i :: !RunAt(t, i);
      DigitsOfDigits(t);
      assert t[..IdLength] == t;
    }
  }

  /** An identifier normalises to itself. */
  lemma NormalizeIdentifier(t: string)
    requires |t| == IdLength && AllDigits(t)
    ensures Normalize(t) == Some(t)
  {
    CleanDigits(t);
    ExtractIdentifier(t);
  }

  /** Normalising an identifier again gives the same identifier: once accepted, a
      code stays fixed, whichever branch of the normaliser produced it. */
  lemma NormalizeIdempotent(raw: string)
    requires Normalize(raw).Some?
    ensures Normalize(Normalize(raw).value) == Normalize(raw)
  {
    NormalizeIdentifier(Normalize(raw).value);
  }

  /** A cleaned string holding exactly one `4`-led 11-digit run yields that run. */
  lemma UniqueRunExtracted(raw: string, i: nat)
    requires RunAt(Clean(raw), i)
    requires forall j :: j != i ==> !RunAt(Clean(raw), j)
    ensures Normalize(raw) == Some(Clean(raw)[i..i + IdLength])
  {
  }
}

=== FILE: registry.dfy ===
/** The application state of the checking tool as a value: the routes map (with the
    insertion order a JavaScript `Map` iterates in), the selected route, and the
    `viaCsv` flag; and every operation on it as a function. */
module Registry {
  import opened Wrappers
  import opened Strings
  import opened Routes

  /** `order` lists the keys of `routes` in insertion order. */
  datatype AppState = AppState(
    order: seq<string>,
    routes: map<string, RouteState>,
    currentRouteId: Option<string>,
    viaCsv: bool)

  predicate NoDup(xs: seq<string>) {
    forall i, j :: 0 <= i < j < |xs| ==> xs[i] != xs[j]
  }

  /** The order lists each key exactly once, and every route is stored under its own id. */
  ghost predicate WellFormed(a: AppState) {
    && (forall k :: k in a.routes <==> k in a.order)
    && NoDup(a.order)
    && (forall k :: k in a.routes ==> a.routes[k].routeId == k)
  }

  /** Every route keeps its three sets pairwise disjoint. */
  predicate AllDisjoint(routes: map<string, RouteState>) {
    forall k :: k in routes ==> Disjoint(routes[k])
  }

  /** `get current()`: the selected route's key, when one is selected (a falsy id selects
      nothing) and still stored. */
  function CurrentKey(a: AppState): (r: Option<string>)
    ensures r.Some? ==> r.value in a.routes && r.value != "" && a.currentRouteId == r
    ensures r.None? ==> a.currentRouteId.None? || a.currentRouteId.value == "" || a.currentRouteId.value !in a.routes
  {
    match a.currentRouteId
    case None => None
    case Some(id) => if id == "" || id !in a.routes then None else Some(id)
  }

  // ---------------------------------------------------------------------------
  // findCorrectRouteForId

  /** Where a route knows an id from, in the resolver's order of preference:
      0 imported, 1 expected, 2 verified, 3 not at all. */
  function Rank(s: RouteState, id: string): nat {
    if id in s.ids then 0 else if id in s.faltantes then 1 else if id in s.conferidos then 2 else 3
  }

  /** The rank of the route at position j of `order`; 3 for a position with no route. */
  function RankAt(order: seq<string>, routes: map<string, RouteState>, id: string, j: int): nat
    requires 0 <= j < |order|
  {
    if order[j] in routes then Rank(routes[order[j]], id) else 3
  }

  /** The first position at or after `from` whose route has rank `p` exactly. */
  function FirstWithRank(order: seq<string>, routes: map<string, RouteState>, id: string, p: nat, from: nat): (r: Option<nat>)
    requires from <= |order|
    ensures r.Some? ==> from <= r.value < |order| && RankAt(order, routes, id, r.value) == p
                        && forall j :: from <= j < r.value ==> RankAt(order, routes, id, j) != p
    ensures r.None? ==> forall j :: from <= j < |order| ==> RankAt(order, routes, id, j) != p
    decreases |order| - from
  {
    if from == |order| then None
    else if RankAt(order, routes, id, from) == p then Some(from)
    else FirstWithRank(order, routes, id, p, from + 1)
  }

  /** The position `findCorrectRouteForId` stops at: three passes over the routes, first for
      `ids`, then `faltantes`, then `conferidos`. */
  function ResolveIndex(order: seq<string>, routes: map<string, RouteState>, id: string): (r: Option<nat>)
    ensures r.Some? ==> r.value < |order| && RankAt(order, routes, id, r.value) < 3
    ensures r.Some? ==> forall j :: 0 <= j < |order| ==>
              RankAt(order, routes, id, j) > RankAt(order, routes, id, r.value)
              || (RankAt(order, routes, id, j) == RankAt(order, routes, id, r.value) && j >= r.value)
    ensures r.None? <==> forall j :: 0 <= j < |order| ==> RankAt(order, routes, id, j) == 3
  {
    match FirstWithRank(order, routes, id, 0, 0)
    case Some(j) => Some(j)
    case None =>
      match FirstWithRank(order, routes, id, 1, 0)
      case Some(j) => Some(j)
      case None => FirstWithRank(order, routes, id, 2, 0)
  }

  /** `findCorrectRouteForId(id)`: the route that owns `id`. A returned route really holds
      `id`; among the routes that hold it, it is the one with the strongest claim (imported,
      then expected, then verified) and, among equals, the first in map order. Nothing is
      returned exactly when no route knows `id`. */
  function Resolve(order: seq<string>, routes: map<string, RouteState>, id: string): (r: Option<string>)
    ensures r.Some? ==> r.value in routes && r.value in order
                        && (id in routes[r.value].ids || id in routes[r.value].faltantes || id in routes[r.value].conferidos)
    ensures r.Some? ==> forall k :: k in routes && k in order ==> Rank(routes[k], id) >= Rank(routes[r.value], id)
    ensures r.None? <==> forall k :: k in routes && k in order ==>
              id !in routes[k].ids && id !in routes[k].faltantes && id !in routes[k].conferidos
    ensures r.Some? ==> exists j :: (0 <= j < |order| && order[j] == r.value
              && forall i :: 0 <= i < j && order[i] in routes ==> Rank(routes[order[i]], id) > Rank(routes[r.value], id))
  {
    match ResolveIndex(order, routes, id)
    case None =>
      assert forall k :: k in routes && k in order ==> Rank(routes[k], id) == 3 by {
        forall k | k in routes && k in order ensures Rank(routes[k], id) == 3 {
          var j :| 0 <= j < |order| && order[j] == k;
          assert RankAt(order, routes, id, j) == 3;
        }
      }
      None
    case Some(j) =>
      assert forall k :: k in routes && k in order ==> Rank(routes[k], id) >= Rank(routes[order[j]], id) by {
        forall k | k in routes && k in order ensures Rank(routes[k], id) >= Rank(routes[order[j]], id) {
          var i :| 0 <= i < |order| && order[i] == k;
          assert RankAt(order, routes, id, i) >= RankAt(order, routes, id, j);
        }
      }
      assert forall i :: 0 <= i < j && order[i] in routes ==> Rank(routes[order[i]], id) > Rank(routes[order[j]], id) by {
        forall i | 0 <= i < j && order[i] in routes
          ensures Rank(routes[order[i]], id) > Rank(routes[order[j]], id)
        {
          assert RankAt(order, routes, id, i) >= RankAt(order, routes, id, j);
        }
      }
      Some(order[j])
  }

  // ---------------------------------------------------------------------------
  // cleanupIdFromOtherRoutes and conferirId

  /** `cleanupIdFromOtherRoutes(id, target)`: every route but `target` is cleaned of `id`. */
  function CleanupOthers(routes: map<string, RouteState>, id: string, target: string): (r: map<string, RouteState>)
    ensures r.Keys == routes.Keys
    ensures target in routes ==> r[target] == routes[target]
    ensures forall k :: k in routes && k != target ==> r[k] == CleanupState(routes[k], id)
    ensures forall k :: k in routes && k != target ==> id !in r[k].foraDeRota && id !in r[k].duplicados
    ensures AllDisjoint(routes) ==> AllDisjoint(r)
  {
    map k | k in routes :: if k == target then routes[k] else CleanupState(routes[k], id)
  }

  /** `conferirId(codigo)` at time `now`. With no route selected, or an empty code, nothing
      changes. Otherwise the owner of `codigo` is resolved first; only when the owner is the
      selected route are the other routes cleaned of `codigo`; then the read is classified
      against the selected route. */
  function Conferir(a: AppState, codigo: string, now: int): (b: AppState)
    ensures b.order == a.order && b.currentRouteId == a.currentRouteId && b.viaCsv == a.viaCsv
    ensures b.routes.Keys == a.routes.Keys
    ensures CurrentKey(a).None? || codigo == "" ==> b == a
    ensures AllDisjoint(a.routes) ==> AllDisjoint(b.routes)
  {
    match CurrentKey(a)
    case None => a
    case Some(cur) =>
      if codigo == "" then a
      else
        var owner := Resolve(a.order, a.routes, codigo);
        var rs := if owner == Some(cur) then CleanupOthers(a.routes, codigo, cur) else a.routes;
        a.(routes := rs[cur := Observe(rs[cur], codigo, now)])
  }

  /** Whether `conferirId(codigo)` sounds the alarm. */
  function ConferirAlerts(a: AppState, codigo: string): bool {
    match CurrentKey(a)
    case None => false
    case Some(cur) => codigo != "" && Alerts(a.routes[cur], codigo, a.viaCsv)
  }

  /** The selected route reads the code exactly as a lone route would. */
  lemma ConferirCurrent(a: AppState, codigo: string, now: int)
    requires CurrentKey(a).Some? && codigo != ""
    ensures var cur := CurrentKey(a).value;
      Conferir(a, codigo, now).routes[cur] == Observe(a.routes[cur], codigo, now)
  {
  }

  /** A read filed in a route that does not own the code leaves every other route alone. */
  lemma ConferirNotOwnerLeavesOthers(a: AppState, codigo: string, now: int)
    requires CurrentKey(a).Some? && Resolve(a.order, a.routes, codigo) != CurrentKey(a)
    ensures forall k :: k in a.routes && Some(k) != CurrentKey(a) ==> Conferir(a, codigo, now).routes[k] == a.routes[k]
  {
  }

  /** A read in the owning route removes the code's off-route and duplicate bookkeeping
      from every other route. */
  lemma ConferirOwnerCleansOthers(a: AppState, codigo: string, now: int)
    requires CurrentKey(a).Some? && codigo != "" && Resolve(a.order, a.routes, codigo) == CurrentKey(a)
    ensures forall k :: k in a.routes && Some(k) != CurrentKey(a) ==>
              var r := Conferir(a, codigo, now).routes[k];
              codigo !in r.foraDeRota && codigo !in r.duplicados
              && r.faltantes == a.routes[k].faltantes && r.conferidos == a.routes[k].conferidos
              && r == CleanupState(a.routes[k], codigo)
  {
  }

  /** Route B expects X, which route A holds as off route. Reading X while B is selected
      removes X from A's off-route set and counters, and B verifies it. */
  lemma MigrationScenario(a: AppState, x: string, routeA: string, routeB: string, now: int)
    requires WellFormed(a)
    requires routeA in a.routes && routeB in a.routes && routeA != routeB && routeB != ""
    requires a.currentRouteId == Some(routeB)
    requires x != "" && x in a.routes[routeB].ids && x in a.routes[routeB].faltantes && x !in a.routes[routeB].conferidos
    requires x in a.routes[routeA].foraDeRota
    requires forall k :: k in a.routes && k != routeB ==> x !in a.routes[k].ids
    ensures var b := Conferir(a, x, now);
      && x !in b.routes[routeA].foraDeRota && x !in b.routes[routeA].duplicados
      && x in b.routes[routeB].conferidos && x !in b.routes[routeB].faltantes
  {
    assert CurrentKey(a) == Some(routeB);
    var owner := Resolve(a.order, a.routes, x);
    assert routeB in a.order;
    assert owner.Some? && Rank(a.routes[owner.value], x) <= Rank(a.routes[routeB], x) == 0;
    assert owner == Some(routeB);
  }

  /** The application after the reads `codes`, the i-th at `nows[i]`. */
  function ConferirAll(a: AppState, codes: seq<string>, nows: seq<int>): (b: AppState)
    requires |nows| == |codes|
    ensures b.order == a.order && b.currentRouteId == a.currentRouteId && b.viaCsv == a.viaCsv
    ensures b.routes.Keys == a.routes.Keys
    decreases |codes|
  {
    if |codes| == 0 then a
    else
      var n := |codes| - 1;
      Conferir(ConferirAll(a, codes[..n], nows[..n]), codes[n], nows[n])
  }

  /** Across any sequence of reads, in any routes, every route keeps its expected, verified
      and off-route sets pairwise disjoint. */
  lemma {:induction false} ConferirAllDisjoint(a: AppState, codes: seq<string>, nows: seq<int>)
    requires |nows| == |codes|
    requires AllDisjoint(a.routes)
    ensures AllDisjoint(ConferirAll(a, codes, nows).routes)
    decreases |codes|
  {
    if |codes| > 0 {
      var n := |codes| - 1;
      ConferirAllDisjoint(a, codes[..n], nows[..n]);
    }
  }

  // ---------------------------------------------------------------------------
  // Registry operations

  /** `routes.set(k, s)`: a new key goes to the end of the iteration order, an existing
      key keeps its place. */
  function Store(a: AppState, k: string, s: RouteState): (b: AppState)
    ensures b.routes == a.routes[k := s] && b.currentRouteId == a.currentRouteId && b.viaCsv == a.viaCsv
    ensures k in a.routes ==> b.order == a.order
    ensures k !in a.routes ==> b.order == a.order + [k]
    ensures WellFormed(a) && s.routeId == k ==> WellFormed(b)
  {
    a.(routes := a.routes[k := s], order := if k in a.routes then a.order else a.order + [k])
  }

  /** `xs` without `k`, the rest in order. */
  function Without(xs: seq<string>, k: string): (r: seq<string>)
    ensures forall x :: x in r <==> x in xs && x != k
    ensures NoDup(xs) ==> NoDup(r)
    ensures k !in xs ==> r == xs
    decreases |xs|
  {
    if |xs| == 0 then []
    else if xs[0] == k then
      assert NoDup(xs) ==> k !in xs[1..] && NoDup(xs[1..]);
      Without(xs[1..], k)
    else
      var rest := Without(xs[1..], k);
      assert NoDup(xs) ==> xs[0] !in rest && NoDup(xs[1..]);
      [xs[0]] + rest
  }

  /** In an order without repeats, removing the key at position p leaves exactly the keys
      before p followed by the keys after it: the other routes keep their relative order. */
  lemma {:induction false} WithoutAt(xs: seq<string>, k: string, p: nat)
    requires NoDup(xs) && p < |xs| && xs[p] == k
    ensures Without(xs, k) == xs[..p] + xs[p + 1..]
    decreases p
  {
    if p == 0 {
      assert k !in xs[1..];
      assert xs[..0] + xs[1..] == xs[1..];
    } else {
      assert NoDup(xs[1..]);
      WithoutAt(xs[1..], k, p - 1);
      assert xs[..p] == [xs[0]] + xs[1..][..p - 1];
      assert xs[p + 1..] == xs[1..][p..];
    }
  }

  /** `deleteRoute(routeId)`: an empty id is ignored; otherwise the route goes, and so does
      the selection if it pointed at it. */
  function DeleteRoute(a: AppState, routeId: string): (b: AppState)
    ensures routeId == "" ==> b == a
    ensures routeId != "" ==> b.routes.Keys == a.routes.Keys - {routeId}
                              && b.currentRouteId != Some(routeId)
                              && (a.currentRouteId != Some(routeId) ==> b.currentRouteId == a.currentRouteId)
                              && (a.currentRouteId == Some(routeId) ==> b.currentRouteId == None)
                              && b.order == Without(a.order, routeId)
    ensures forall k :: k in b.routes ==> b.routes[k] == a.routes[k]
    ensures b.viaCsv == a.viaCsv
    ensures WellFormed(a) ==> WellFormed(b)
  {
    if routeId == "" then a
    else
      a.(routes := a.routes - {routeId},
         order := Without(a.order, routeId),
         currentRouteId := if a.currentRouteId == Some(routeId) then None else a.currentRouteId)
  }

  /** `clearAllRoutes()`. */
  function ClearAllRoutes(a: AppState): (b: AppState)
    ensures b.routes == map[] && b.order == [] && b.currentRouteId == None && b.viaCsv == a.viaCsv
    ensures WellFormed(b) && CurrentKey(b).None?
  {
    AppState([], map[], None, a.viaCsv)
  }

  /** `setCurrentRoute(routeId)`: selects a stored route; an unknown id changes nothing
      (the source shows "Rota não encontrada."). */
  function SetCurrentRoute(a: AppState, routeId: string): (b: AppState)
    ensures routeId in a.routes ==> b == a.(currentRouteId := Some(routeId))
    ensures routeId !in a.routes ==> b == a
    ensures routeId in a.routes && routeId != "" ==> CurrentKey(b) == Some(routeId)
    ensures WellFormed(a) ==> WellFormed(b)
  {
    if routeId in a.routes then a.(currentRouteId := Some(routeId)) else a
  }

  /** What the HTML scraper hands over for one route block: its id, the cluster and the
      destination facility (id, name) when found, and the shipment ids it extracted. */
  datatype ImportedRoute = ImportedRoute(
    routeId: string,
    cluster: Option<string>,
    facility: Option<(string, string)>,
    ids: seq<string>)

  /** The cluster and facility an import block sets on its route when it carries them. */
  function Annotate(s: RouteState, b: ImportedRoute): (t: RouteState)
    ensures t.cluster == (if b.cluster.Some? then b.cluster.value else s.cluster)
    ensures t.destinationFacilityId == (if b.facility.Some? then b.facility.value.0 else s.destinationFacilityId)
    ensures t.destinationFacilityName == (if b.facility.Some? then b.facility.value.1 else s.destinationFacilityName)
    ensures t == s.(cluster := t.cluster, destinationFacilityId := t.destinationFacilityId,
                    destinationFacilityName := t.destinationFacilityName)
  {
    var s1 := if b.cluster.Some? then s.(cluster := b.cluster.value) else s;
    if b.facility.Some? then s1.(destinationFacilityId := b.facility.value.0, destinationFacilityName := b.facility.value.1)
    else s1
  }

  /** The route an import block or manual entry starts from: the stored one, else a new one. */
  function Base(a: AppState, routeId: string): (s: RouteState)
    ensures routeId in a.routes ==> s == a.routes[routeId]
    ensures routeId !in a.routes ==> s == EmptyRoute(routeId)
  {
    if routeId in a.routes then a.routes[routeId] else EmptyRoute(routeId)
  }

  /** One block of `importRoutesFromHtml`. A block with no ids imports nothing, though a
      stored route still takes its cluster and facility (they are set on the live object
      before the check). Otherwise the ids are merged into the stored or a new route. */
  function ImportBlock(a: AppState, b: ImportedRoute): (c: AppState)
    ensures c.currentRouteId == a.currentRouteId && c.viaCsv == a.viaCsv
    ensures |b.ids| == 0 && b.routeId !in a.routes ==> c == a
    ensures |b.ids| > 0 ==> b.routeId in c.routes && c.routes[b.routeId] == Merge(Annotate(Base(a, b.routeId), b), b.ids)
    ensures b.routeId in c.routes <==> b.routeId in a.routes || |b.ids| > 0
    ensures b.routeId in c.routes ==> c.routes == a.routes[b.routeId := c.routes[b.routeId]]
    ensures b.routeId !in c.routes ==> c.routes == a.routes
    ensures |b.ids| == 0 && b.routeId in a.routes ==>
              c == a.(routes := a.routes[b.routeId := Annotate(a.routes[b.routeId], b)])
    ensures c.order == (if b.routeId in a.routes || |b.ids| == 0 then a.order else a.order + [b.routeId])
  {
    var s := Annotate(Base(a, b.routeId), b);
    if |b.ids| == 0 then
      if b.routeId in a.routes then a.(routes := a.routes[b.routeId := s]) else a
    else
      Store(a, b.routeId, Merge(s, b.ids))
  }

  /** A block with ids for an unknown route stores a new route: an empty one described
      by the block, then given its ids. */
  lemma ImportNewBlock(a: AppState, b: ImportedRoute)
    requires b.routeId !in a.routes && |b.ids| > 0
    ensures ImportBlock(a, b) == Store(a, b.routeId, Merge(Annotate(EmptyRoute(b.routeId), b), b.ids))
  {
    assert Base(a, b.routeId) == EmptyRoute(b.routeId);
  }

  /** An import block keeps the registry well formed. */
  lemma ImportBlockWellFormed(a: AppState, b: ImportedRoute)
    requires WellFormed(a)
    ensures WellFormed(ImportBlock(a, b))
  {
    var s := Annotate(Base(a, b.routeId), b);
    assert s.routeId == b.routeId;
    if |b.ids| > 0 {
      assert Merge(s, b.ids).routeId == b.routeId;
    }
  }

  /** Whether a block counts as imported. */
  function Imported(b: ImportedRoute): bool {
    |b.ids| > 0
  }

  /** The number of blocks that count as imported: the positions of the blocks with ids. */
  function ImportedCount(blocks: seq<ImportedRoute>): (n: nat)
    ensures n == |set i | 0 <= i < |blocks| && Imported(blocks[i])|
    ensures n <= |blocks|
  {
    if |blocks| == 0 then 0
    else
      var m := |blocks| - 1;
      var pre := blocks[..m];
      assert (set i | 0 <= i < |blocks| && Imported(blocks[i]))
             == (set i | 0 <= i < m && Imported(pre[i])) + (if Imported(blocks[m]) then {m} else {});
      ImportedCount(pre) + (if Imported(blocks[m]) then 1 else 0)
  }

  /** `importRoutesFromHtml` after extraction: the blocks in document order. */
  function ImportAll(a: AppState, blocks: seq<ImportedRoute>): (c: AppState)
    ensures c.currentRouteId == a.currentRouteId && c.viaCsv == a.viaCsv
    decreases |blocks|
  {
    if |blocks| == 0 then a
    else ImportBlock(ImportAll(a, blocks[..|blocks| - 1]), blocks[|blocks| - 1])
  }

  /** One more block. */
  lemma ImportAllStep(a: AppState, blocks: seq<ImportedRoute>, i: nat)
    requires i < |blocks|
    ensures ImportAll(a, blocks[..i + 1]) == ImportBlock(ImportAll(a, blocks[..i]), blocks[i])
    ensures ImportedCount(blocks[..i + 1]) == ImportedCount(blocks[..i]) + (if Imported(blocks[i]) then 1 else 0)
  {
    assert blocks[..i + 1][..i] == blocks[..i];
  }

  /** Importing any batch of blocks keeps the registry well formed. */
  lemma {:induction false} ImportAllWellFormed(a: AppState, blocks: seq<ImportedRoute>)
    requires WellFormed(a)
    ensures WellFormed(ImportAll(a, blocks))
    decreases |blocks|
  {
    if |blocks| > 0 {
      ImportAllWellFormed(a, blocks[..|blocks| - 1]);
      ImportBlockWellFormed(ImportAll(a, blocks[..|blocks| - 1]), blocks[|blocks| - 1]);
    }
  }

  /** Why manual entry refuses to save. */
  datatype ManualError = MissingRouteId | NoValidIds

  /** The `#submit-manual` handler: trimmed route id and cluster, ids taken from the text
      box, merged into the stored or a new route; a non-empty cluster replaces the old one. */
  function ManualEntry(a: AppState, rawRouteId: string, rawCluster: string, text: string): (r: Result<AppState, ManualError>)
    ensures Trim(rawRouteId) == "" <==> r == Failure(MissingRouteId)
    ensures r == Failure(NoValidIds) <==> Trim(rawRouteId) != "" && |Tokens(text)| == 0
    ensures r.Success? ==> var k := Trim(rawRouteId);
      && k in r.value.routes
      && r.value.routes[k].ids == Base(a, k).ids + Elems(Tokens(text))
      && r.value.routes[k].conferidos == Base(a, k).conferidos
      && r.value.routes[k].totalInicial == |r.value.routes[k].ids|
      && r.value.routes[k].cluster == (if Trim(rawCluster) != "" then Trim(rawCluster) else Base(a, k).cluster)
      && r.value.routes == a.routes[k := r.value.routes[k]]
    ensures r.Success? ==> var k := Trim(rawRouteId);
      && r.value.routes[k].faltantes == Base(a, k).faltantes + (Elems(Tokens(text)) - Base(a, k).conferidos)
      && r.value.routes[k] == Merge(Base(a, k).(cluster := r.value.routes[k].cluster), Tokens(text))
      && r.value.order == (if k in a.routes then a.order else a.order + [k])
      && r.value.currentRouteId == a.currentRouteId && r.value.viaCsv == a.viaCsv
  {
    var routeId := Trim(rawRouteId);
    if routeId == "" then Failure(MissingRouteId)
    else
      var cluster := Trim(rawCluster);
      var ids := Tokens(text);
      if |ids| == 0 then Failure(NoValidIds)
      else
        var base := Base(a, routeId);
        var named := if cluster != "" then base.(cluster := cluster) else base;
        Success(Store(a, routeId, Merge(named, ids)))
  }

  /** A saved manual entry keeps the registry well formed. */
  lemma ManualEntryWellFormed(a: AppState, rawRouteId: string, rawCluster: string, text: string)
    requires WellFormed(a)
    ensures var r := ManualEntry(a, rawRouteId, rawCluster, text);
      r.Success? ==> WellFormed(r.value)
  {
    var k := Trim(rawRouteId);
    assert Base(a, k).routeId == k;
  }

  /** An import can break disjointness: an id already filed off route in a route becomes
      expected there too when a later import of that route lists it. */
  lemma ImportCanOverlapOffRoute(a: AppState, b: ImportedRoute, x: string)
    requires b.routeId in a.routes && x in b.ids
    requires x in a.routes[b.routeId].foraDeRota && x !in a.routes[b.routeId].conferidos
    ensures var s := ImportBlock(a, b).routes[b.routeId];
      x in s.faltantes && x in s.foraDeRota && !Disjoint(s)
  {
    var s := ImportBlock(a, b).routes[b.routeId];
    assert x in s.faltantes * s.foraDeRota;
  }
}

=== FILE: report.dfy ===
/** What the exports compute before any file is written: the rows of
    `exportRotaAtualCsv` (which ids, in which order, with which `duplicates`
    value), the all-routes grid of `exportTodasRotasXlsx`, and the progress
    percentage of `atualizarProgresso`. */
module Report {
  import opened Wrappers
  import opened Strings
  import opened Routes
  import opened Registry

  // ---------------------------------------------------------------------------
  // Read order

  /** The sort key of an id: its timestamp, 0 when it has none. */
  function SortKey(ts: map<string, int>, id: string): int {
    if id in ts && ts[id] != 0 then ts[id] else 0
  }

  /** The export comparator `(ta - tb) || a.localeCompare(b)` as a strict order:
      earlier read first, ties broken by id. */
  predicate Before(ts: map<string, int>, a: string, b: string) {
    SortKey(ts, a) < SortKey(ts, b) || (SortKey(ts, a) == SortKey(ts, b) && StrLess(a, b))
  }

  lemma BeforeIrreflexive(ts: map<string, int>, a: string)
    ensures !Before(ts, a, a)
  {
    StrLessIrreflexive(a);
  }

  lemma BeforeTransitive(ts: map<string, int>, a: string, b: string, c: string)
    requires Before(ts, a, b) && Before(ts, b, c)
    ensures Before(ts, a, c)
  {
    if SortKey(ts, a) == SortKey(ts, b) == SortKey(ts, c) {
      StrLessTransitive(a, b, c);
    }
  }

  lemma BeforeTotal(ts: map<string, int>, a: string, b: string)
    requires a != b
    ensures Before(ts, a, b) || Before(ts, b, a)
  {
    StrLessTotal(a, b);
  }

  lemma BeforeAsymmetric(ts: map<string, int>, a: string, b: string)
    requires Before(ts, a, b)
    ensures !Before(ts, b, a)
  {
    if Before(ts, b, a) {
      BeforeTransitive(ts, a, b, a);
      BeforeIrreflexive(ts, a);
    }
  }

  /** `m` comes before every other element of `s`. */
  ghost predicate IsFirst(s: set<string>, ts: map<string, int>, m: string) {
    m in s && forall y :: y in s && y != m ==> Before(ts, m, y)
  }

  /** Every non-empty set of ids has a first element in read order. */
  lemma {:induction false} FirstExists(s: set<string>, ts: map<string, int>)
    requires s != {}
    ensures exists m :: IsFirst(s, ts, m)
    decreases |s|
  {
    var x :| x in s;
    if s != {x} {
      var rest := s - {x};
      FirstExists(rest, ts);
      var m :| IsFirst(rest, ts, m);
      if Before(ts, x, m) {
        forall y | y in s && y != x ensures Before(ts, x, y) {
          if y != m { BeforeTransitive(ts, x, m, y); }
        }
        assert IsFirst(s, ts, x);
      } else {
        BeforeTotal(ts, x, m);
        assert IsFirst(s, ts, m);
      }
    } else {
      assert IsFirst(s, ts, x);
    }
  }

  /** Strictly increasing in read order (hence free of repeats). */
  predicate SortedBy(ts: map<string, int>, q: seq<string>) {
    forall i, j :: 0 <= i < j < |q| ==> Before(ts, q[i], q[j])
  }

  /** The first id of a non-empty set in read order. */
  ghost function First(s: set<string>, ts: map<string, int>): (m: string)
    requires s != {}
    ensures IsFirst(s, ts, m)
  {
    FirstExists(s, ts);
    var m :| IsFirst(s, ts, m);
    m
  }

  lemma SortedCons(s: set<string>, ts: map<string, int>, m: string, rest: seq<string>)
    requires IsFirst(s, ts, m)
    requires |rest| == |s - {m}| && (forall x :: x in rest <==> x in s - {m}) && SortedBy(ts, rest)
    ensures |[m] + rest| == |s| && (forall x :: x in [m] + rest <==> x in s) && SortedBy(ts, [m] + rest)
  {
    var q := [m] + rest;
    forall i, j | 0 <= i < j < |q| ensures Before(ts, q[i], q[j]) {
      if i == 0 {
        assert q[j] == rest[j - 1] && q[j] in s - {m};
      } else {
        assert q[i] == rest[i - 1] && q[j] == rest[j - 1];
      }
    }
  }

  /** The ids of `s` in read order: what `Array.from(new Set(all)).sort(...)` yields. */
  ghost function SortIds(s: set<string>, ts: map<string, int>): (q: seq<string>)
    ensures |q| == |s|
    ensures forall x :: x in q <==> x in s
    ensures SortedBy(ts, q)
    decreases |s|
  {
    if s == {} then []
    else
      var m := First(s, ts);
      var rest := SortIds(s - {m}, ts);
      SortedCons(s, ts, m, rest);
      [m] + rest
  }

  /** Two read-ordered sequences with the same ids are equal: the export order does not
      depend on the order in which the sets were iterated before sorting. */
  lemma {:induction false} SortedUnique(ts: map<string, int>, p: seq<string>, q: seq<string>)
    requires SortedBy(ts, p) && SortedBy(ts, q)
    requires forall x :: x in p <==> x in q
    ensures p == q
    decreases |p|
  {
    if |p| > 0 { assert p[0] in p; }
    if |q| > 0 { assert q[0] in q; }
    if |p| > 0 && |q| > 0 {
      assert q[0] in q && p[0] in p;
      var i :| 0 <= i < |p| && p[i] == q[0];
      var j :| 0 <= j < |q| && q[j] == p[0];
      if i > 0 && j > 0 {
        assert Before(ts, p[0], q[0]) && Before(ts, q[0], p[0]);
        BeforeAsymmetric(ts, p[0], q[0]);
      }
      assert p[0] == q[0] by {
        if i > 0 && j == 0 { BeforeIrreflexive(ts, p[0]); }
        if j > 0 && i == 0 { BeforeIrreflexive(ts, q[0]); }
      }
      forall x ensures x in p[1..] <==> x in q[1..] {
        if x in p[1..] {
          var k :| 1 <= k < |p| && p[k] == x;
          assert Before(ts, p[0], x);
          BeforeIrreflexive(ts, x);
          assert x in q;
          var l :| 0 <= l < |q| && q[l] == x;
          assert l != 0;
          assert q[1..][l - 1] == x;
        }
        if x in q[1..] {
          var l :| 1 <= l < |q| && q[l] == x;
          assert Before(ts, q[0], x);
          BeforeIrreflexive(ts, x);
          assert x in p;
          var k :| 0 <= k < |p| && p[k] == x;
          assert k != 0;
          assert p[1..][k - 1] == x;
        }
      }
      SortedUnique(ts, p[1..], q[1..]);
    }
  }

  // ---------------------------------------------------------------------------
  // exportRotaAtualCsv

  datatype ExportError = NoRouteSelected | NothingToExport | NoRoutes

  /** One CSV line before date formatting: the id, its raw read time, and the `duplicates`
      column. */
  datatype Row = Row(id: string, readAt: Option<int>, duplicates: int)

  /** The ids the route export lists: verified, off route, and any id with a counter. */
  function Candidates(s: RouteState): set<string> {
    s.conferidos + s.foraDeRota + s.duplicados.Keys
  }

  function Max(a: int, b: int): int {
    if a >= b then a else b
  }

  /** The `duplicates` column: the extra reads beyond the first, from the total read count. */
  function DuplicatesColumn(dup: map<string, int>, id: string): (n: int)
    ensures n >= 0
    ensures id !in dup ==> n == 0
    ensures id in dup ==> n == Max(0, dup[id] - 1)
  {
    var totalReads := if id in dup then dup[id] else 0;
    if totalReads != 0 then Max(0, totalReads - 1) else 0
  }

  function RowOf(s: RouteState, id: string): (row: Row)
    ensures row.id == id && row.duplicates == DuplicatesColumn(s.duplicados, id)
    ensures row.readAt.Some? <==> id in s.timestamps
    ensures row.readAt.Some? ==> row.readAt.value == s.timestamps[id]
  {
    Row(id, if id in s.timestamps then Some(s.timestamps[id]) else None, DuplicatesColumn(s.duplicados, id))
  }

  /** The id column of a list of rows. */
  function RowIds(rows: seq<Row>): (ids: seq<string>)
    ensures |ids| == |rows| && forall i :: 0 <= i < |rows| ==> ids[i] == rows[i].id
  {
    if |rows| == 0 then [] else [rows[0].id] + RowIds(rows[1..])
  }

  /** One row per id, in the given order. */
  function RowsFor(s: RouteState, ids: seq<string>): (rows: seq<Row>)
    ensures RowIds(rows) == ids
    ensures forall i :: 0 <= i < |rows| ==> rows[i] == RowOf(s, ids[i])
  {
    if |ids| == 0 then [] else [RowOf(s, ids[0])] + RowsFor(s, ids[1..])
  }

  /** The rows of the current-route CSV: none at all (the source refuses) when there is
      nothing to export; otherwise each candidate id exactly once, in read order, with its
      read time and its extra-read count. */
  ghost function ExportRows(s: RouteState): (r: Result<seq<Row>, ExportError>)
    ensures r.Failure? <==> Candidates(s) == {}
    ensures r.Failure? ==> r.error == NothingToExport
    ensures r.Success? ==> |r.value| == |Candidates(s)|
    ensures r.Success? ==> forall x :: x in RowIds(r.value) <==> x in Candidates(s)
    ensures r.Success? ==> SortedBy(s.timestamps, RowIds(r.value))
    ensures r.Success? ==> forall i :: 0 <= i < |r.value| ==> r.value[i] == RowOf(s, r.value[i].id)
  {
    var c := Candidates(s);
    if c == {} then Failure(NothingToExport)
    else Success(RowsFor(s, SortIds(c, s.timestamps)))
  }

  /** `exportRotaAtualCsv()`: refuses without a selected route. */
  ghost function ExportCurrent(a: AppState): (r: Result<seq<Row>, ExportError>)
    ensures CurrentKey(a).None? ==> r == Failure(NoRouteSelected)
    ensures CurrentKey(a).Some? ==> r == ExportRows(a.routes[CurrentKey(a).value])
  {
    match CurrentKey(a)
    case None => Failure(NoRouteSelected)
    case Some(k) => ExportRows(a.routes[k])
  }

  /** An expected code read k times appears in the export with k - 1 extra reads. */
  lemma ReadsExported(s: RouteState, codigo: string, nows: seq<int>)
    requires codigo in s.faltantes && codigo !in s.conferidos && codigo !in s.duplicados
    requires |nows| >= 1
    ensures var t := ObserveAll(s, seq(|nows|, _ => codigo), nows);
      codigo in Candidates(t) && DuplicatesColumn(t.duplicados, codigo) == |nows| - 1
  {
    RepeatedReadsCount(s, codigo, nows);
  }

  // ---------------------------------------------------------------------------
  // exportTodasRotasXlsx

  /** A column heading: `routeId-cluster`, or the route id alone when the trimmed cluster
      is empty, or `ROTA` when that is empty too. */
  function Header(s: RouteState): (h: string)
    ensures h != ""
    ensures Trim(s.cluster) != "" ==> h == s.routeId + "-" + Trim(s.cluster)
    ensures Trim(s.cluster) == "" && s.routeId != "" ==> h == s.routeId
    ensures Trim(s.cluster) == "" && s.routeId == "" ==> h == "ROTA"
  {
    var cluster := Trim(s.cluster);
    var header := if cluster != "" then s.routeId + "-" + cluster else s.routeId;
    if header == "" then "ROTA" else header
  }

  /** The routes in the grid's column order: by route id. */
  ghost function RouteOrder(routes: map<string, RouteState>): (keys: seq<string>)
    ensures |keys| == |routes|
    ensures forall k :: k in keys <==> k in routes
    ensures forall i, j :: 0 <= i < j < |keys| ==> StrLess(keys[i], keys[j])
  {
    SortIds(routes.Keys, map[])
  }

  /** A route's column: its verified ids in read order. */
  ghost function Column(s: RouteState): (col: seq<string>)
    ensures |col| == |s.conferidos| && (forall x :: x in col <==> x in s.conferidos)
    ensures SortedBy(s.timestamps, col)
  {
    SortIds(s.conferidos, s.timestamps)
  }

  function MaxLen(cols: seq<seq<string>>): (m: nat)
    ensures forall j :: 0 <= j < |cols| ==> |cols[j]| <= m
    ensures |cols| == 0 ==> m == 0
    ensures |cols| > 0 ==> exists j :: 0 <= j < |cols| && |cols[j]| == m
  {
    if |cols| == 0 then 0
    else
      var m := MaxLen(cols[..|cols| - 1]);
      assert forall j :: 0 <= j < |cols| - 1 ==> cols[..|cols| - 1][j] == cols[j];
      if |cols[|cols| - 1]| > m then |cols[|cols| - 1]| else m
  }

  /** The headings of the routes named by `keys`, in that order. */
  function Headings(routes: map<string, RouteState>, keys: seq<string>): (h: seq<string>)
    requires forall k :: k in keys ==> k in routes
    ensures |h| == |keys| && forall j :: 0 <= j < |keys| ==> h[j] == Header(routes[keys[j]])
  {
    if |keys| == 0 then []
    else
      assert keys[0] in keys;
      var rest := Headings(routes, keys[1..]);
      assert forall j :: 1 <= j < |keys| ==> keys[1..][j - 1] == keys[j];
      HeadIndex(Header(routes[keys[0]]), rest);
      [Header(routes[keys[0]])] + rest
  }

  /** Index arithmetic for a string prepended to a sequence of strings: a proof step, not a
      property of the tool. */
  lemma HeadIndex(x: string, xs: seq<string>)
    ensures |[x] + xs| == 1 + |xs| && ([x] + xs)[0] == x
    ensures forall i :: 1 <= i < 1 + |xs| ==> ([x] + xs)[i] == xs[i - 1]
  {
  }

  /** The columns of the routes named by `keys`, in that order. */
  ghost function Columns(routes: map<string, RouteState>, keys: seq<string>): (cols: seq<seq<string>>)
    requires forall k :: k in keys ==> k in routes
    ensures |cols| == |keys| && forall j :: 0 <= j < |keys| ==> cols[j] == Column(routes[keys[j]])
  {
    if |keys| == 0 then [] else [Column(routes[keys[0]])] + Columns(routes, keys[1..])
  }

  /** `c.ids[i] || ''`: the i-th entry of a column, blank past its end. */
  function Cell(col: seq<string>, i: nat): string {
    if i < |col| then col[i] else ""
  }

  /** Row i of the body: the i-th entry of every column. */
  function BodyRow(cols: seq<seq<string>>, i: nat): (row: seq<string>)
    ensures |row| == |cols| && forall j :: 0 <= j < |cols| ==> row[j] == Cell(cols[j], i)
  {
    if |cols| == 0 then [] else [Cell(cols[0], i)] + BodyRow(cols[1..], i)
  }

  /** The first n rows of the body. */
  function Body(cols: seq<seq<string>>, n: nat): (rows: seq<seq<string>>)
    ensures |rows| == n && forall i :: 0 <= i < n ==> rows[i] == BodyRow(cols, i)
  {
    if n == 0 then [] else Body(cols, n - 1) + [BodyRow(cols, n - 1)]
  }

  /** The sheet of `exportTodasRotasXlsx`: a heading row, then one row per position, each
      column listing its route's verified ids in read order and padded with `''` below;
      exactly as tall as the longest column. No routes: nothing to export. */
  ghost function Grid(routes: map<string, RouteState>): (r: Result<seq<seq<string>>, ExportError>)
    ensures r.Failure? <==> |routes| == 0
    ensures r.Failure? ==> r.error == NoRoutes
    ensures r.Success? ==> r.value == Sheet(Headings(routes, RouteOrder(routes)), Columns(routes, RouteOrder(routes)))
  {
    if |routes| == 0 then Failure(NoRoutes)
    else Success(Sheet(Headings(routes, RouteOrder(routes)), Columns(routes, RouteOrder(routes))))
  }

  /** The heading row followed by the padded body. */
  function Sheet(head: seq<string>, cols: seq<seq<string>>): (g: seq<seq<string>>)
    ensures |g| == 1 + MaxLen(cols)
    ensures g[0] == head
    ensures forall i :: 1 <= i < |g| ==> g[i] == BodyRow(cols, i - 1)
  {
    var body := Body(cols, MaxLen(cols));
    ConsIndex(head, body);
    [head] + body
  }

  /** Past its first element, a sequence with one element in front is the original: a proof
      step, not a property of the tool. */
  lemma ConsIndex(x: seq<string>, xs: seq<seq<string>>)
    ensures forall i :: 1 <= i < 1 + |xs| ==> ([x] + xs)[i] == xs[i - 1]
  {
  }

  /** `exportTodasRotasXlsx()` over the stored routes. */
  ghost function ExportAllRoutes(a: AppState): Result<seq<seq<string>>, ExportError> {
    Grid(a.routes)
  }

  // ---------------------------------------------------------------------------
  // atualizarProgresso

  /** The denominator: `totalInicial`, else the number of imported ids, else verified plus
      expected. */
  function ProgressTotal(s: RouteState): nat {
    if s.totalInicial != 0 then s.totalInicial
    else if |s.ids| != 0 then |s.ids|
    else |s.conferidos| + |s.faltantes|
  }

  /** The progress bar label: the verified share of the total, in whole percent rounded
      down; 0 when the total is 0. */
  function ProgressPercent(s: RouteState): (p: nat)
    ensures ProgressTotal(s) == 0 ==> p == 0
    ensures ProgressTotal(s) > 0 ==> p * ProgressTotal(s) <= 100 * |s.conferidos| < (p + 1) * ProgressTotal(s)
  {
    var total := ProgressTotal(s);
    if total == 0 then 0 else (100 * |s.conferidos|) / total
  }

  /** `atualizarProgresso()`: nothing without a selected route, else the selected route's
      percentage. */
  function Progress(a: AppState): (r: Option<nat>)
    ensures CurrentKey(a).None? <==> r.None?
    ensures r.Some? ==> r.value == ProgressPercent(a.routes[CurrentKey(a).value])
  {
    match CurrentKey(a)
    case None => None
    case Some(k) => Some(ProgressPercent(a.routes[k]))
  }

  /** Every expected and every verified id of the route is one of its imported ids. */
  predicate Tracked(s: RouteState) {
    s.faltantes <= s.ids && s.conferidos <= s.ids
  }

  /** A subset is no larger than its superset: a proof step, not a property of the tool. */
  lemma SubsetCard(a: set<string>, b: set<string>)
    requires a <= b
    ensures |a| <= |b|
  {
    assert b == a + (b - a);
  }

  /** While every verified id is an imported id and the total was taken at the last merge,
      progress never passes 100%. */
  lemma ProgressAtMost100(s: RouteState)
    requires Tracked(s) && s.totalInicial == |s.ids|
    ensures ProgressPercent(s) <= 100
  {
    SubsetCard(s.conferidos, s.ids);
    if ProgressTotal(s) > 0 {
      var p := ProgressPercent(s);
    }
  }

  /** Merging, reading, cleaning and migrating all keep `Tracked` and the total, so the
      bound above holds for the whole life of an imported route. */
  lemma TrackedPreserved(s: RouteState, xs: seq<string>, codigo: string, now: int, id: string)
    requires Tracked(s)
    ensures Tracked(Merge(s, xs)) && Merge(s, xs).totalInicial == |Merge(s, xs).ids|
    ensures Tracked(Observe(s, codigo, now))
    ensures Observe(s, codigo, now).ids == s.ids && Observe(s, codigo, now).totalInicial == s.totalInicial
    ensures Tracked(CleanupState(s, id)) && Tracked(Migrate(s))
  {
  }
}

=== FILE: routes.dfy ===
/** One route being checked, as a value, and the transitions the checking tool
    applies to a single route: reading a code (`conferirId`), dropping stale
    off-route bookkeeping (`cleanupIdFromOtherRoutes`, one route at a time),
    merging extracted ids (import and manual entry) and the load-time migration. */
module Routes {

  /** A route record: `makeEmptyRoute`'s shape. `timestamps` maps an id to the epoch
      milliseconds of its last read; `duplicados` maps an id to its total read count. */
  datatype RouteState = RouteState(
    routeId: string,
    cluster: string,
    destinationFacilityId: string,
    destinationFacilityName: string,
    timestamps: map<string, int>,
    ids: set<string>,
    faltantes: set<string>,
    conferidos: set<string>,
    foraDeRota: set<string>,
    duplicados: map<string, int>,
    totalInicial: nat)

  /** `makeEmptyRoute(routeId)`. */
  function EmptyRoute(routeId: string): (r: RouteState)
    ensures r.routeId == routeId && r.cluster == "" && r.destinationFacilityId == "" && r.destinationFacilityName == ""
    ensures r.ids == {} && r.faltantes == {} && r.conferidos == {} && r.foraDeRota == {}
    ensures r.duplicados == map[] && r.timestamps == map[] && r.totalInicial == 0
  {
    RouteState(routeId, "", "", "", map[], {}, {}, {}, {}, map[], 0)
  }

  /** Expected, verified and off-route ids are pairwise disjoint. */
  predicate Disjoint(s: RouteState) {
    s.faltantes * s.conferidos == {} && s.faltantes * s.foraDeRota == {} && s.conferidos * s.foraDeRota == {}
  }

  /** How a read of `codigo` is classified, in the order the branches are tested. */
  datatype Outcome = Duplicate | Verified | OffRoute

  function Classify(s: RouteState, codigo: string): Outcome {
    if codigo in s.conferidos then Duplicate
    else if codigo in s.faltantes then Verified
    else if codigo in s.foraDeRota then Duplicate
    else OffRoute
  }

  /** Read count of `codigo` as `duplicados.get(codigo) || 1`: an absent or zero entry reads as 1. */
  function ReadCount(dup: map<string, int>, codigo: string): (n: int)
    ensures codigo !in dup || dup[codigo] == 0 ==> n == 1
    ensures codigo in dup && dup[codigo] != 0 ==> n == dup[codigo]
  {
    if codigo in dup && dup[codigo] != 0 then dup[codigo] else 1
  }

  /** One more read of `codigo` recorded; every other counter unchanged. */
  function Bump(dup: map<string, int>, codigo: string): (d: map<string, int>)
    ensures d.Keys == dup.Keys + {codigo}
    ensures d[codigo] == ReadCount(dup, codigo) + 1
    ensures forall k :: k in dup && k != codigo ==> d[k] == dup[k]
  {
    dup[codigo := ReadCount(dup, codigo) + 1]
  }

  /** The effect of `conferirId(codigo)` on the route it reads into, at time `now`. */
  function Observe(s: RouteState, codigo: string, now: int): (t: RouteState)
    ensures t == s.(faltantes := t.faltantes, conferidos := t.conferidos, foraDeRota := t.foraDeRota,
                    duplicados := t.duplicados, timestamps := t.timestamps)
    ensures t.timestamps == s.timestamps[codigo := now]
    ensures codigo in t.conferidos + t.foraDeRota
    ensures s.faltantes - {codigo} <= t.faltantes <= s.faltantes
    ensures s.conferidos <= t.conferidos <= s.conferidos + {codigo}
    ensures s.foraDeRota <= t.foraDeRota <= s.foraDeRota + {codigo}
    ensures Disjoint(s) ==> Disjoint(t)
  {
    var ts := s.timestamps[codigo := now];
    match Classify(s, codigo)
    case Duplicate => s.(duplicados := Bump(s.duplicados, codigo), timestamps := ts)
    case Verified => s.(faltantes := s.faltantes - {codigo}, conferidos := s.conferidos + {codigo}, timestamps := ts)
    case OffRoute => s.(foraDeRota := s.foraDeRota + {codigo}, timestamps := ts)
  }

  /** Whether the read asks for the alarm sound: anything but a verified read, unless the
      read comes from a CSV batch. */
  function Alerts(s: RouteState, codigo: string, viaCsv: bool): bool {
    Classify(s, codigo) != Verified && !viaCsv
  }

  /** An expected code that is not yet verified becomes verified; nothing else but its
      timestamp changes, and no alarm sounds. */
  lemma ObserveExpected(s: RouteState, codigo: string, now: int, viaCsv: bool)
    requires codigo in s.faltantes && codigo !in s.conferidos
    ensures var t := Observe(s, codigo, now);
      && codigo in t.conferidos && codigo !in t.faltantes
      && t.faltantes == s.faltantes - {codigo} && t.conferidos == s.conferidos + {codigo}
      && t.foraDeRota == s.foraDeRota && t.duplicados == s.duplicados
      && t.timestamps[codigo] == now
    ensures !Alerts(s, codigo, viaCsv)
  {
  }

  /** A code already verified, or off route and not expected, is a repeat: its read count
      goes up by one, the three sets stay as they were, and the alarm sounds unless
      reading a CSV. Verified is tested first, so a verified code is a repeat even where
      an import made the sets overlap. */
  lemma ObserveRepeat(s: RouteState, codigo: string, now: int, viaCsv: bool)
    requires codigo in s.conferidos || (codigo in s.foraDeRota && codigo !in s.faltantes)
    ensures var t := Observe(s, codigo, now);
      && t.faltantes == s.faltantes && t.conferidos == s.conferidos && t.foraDeRota == s.foraDeRota
      && t.duplicados == s.duplicados[codigo := ReadCount(s.duplicados, codigo) + 1]
      && t.timestamps[codigo] == now
    ensures Alerts(s, codigo, viaCsv) == !viaCsv
  {
    assert Classify(s, codigo) == Duplicate;
    assert Observe(s, codigo, now) == s.(duplicados := Bump(s.duplicados, codigo), timestamps := s.timestamps[codigo := now]);
  }

  /** A code the route has never seen is filed off route only, with the alarm unless via CSV. */
  lemma ObserveUnknown(s: RouteState, codigo: string, now: int, viaCsv: bool)
    requires codigo !in s.faltantes && codigo !in s.conferidos && codigo !in s.foraDeRota
    ensures var t := Observe(s, codigo, now);
      && t.foraDeRota == s.foraDeRota + {codigo} && t.faltantes == s.faltantes
      && t.conferidos == s.conferidos && t.duplicados == s.duplicados
    ensures Alerts(s, codigo, viaCsv) == !viaCsv
  {
  }

  /** A route after reading `codes` in turn, the i-th at time `nows[i]`. */
  function ObserveAll(s: RouteState, codes: seq<string>, nows: seq<int>): RouteState
    requires |nows| == |codes|
    decreases |codes|
  {
    if |codes| == 0 then s
    else
      var n := |codes| - 1;
      Observe(ObserveAll(s, codes[..n], nows[..n]), codes[n], nows[n])
  }

  /** Reading any sequence of codes keeps the three sets pairwise disjoint. */
  lemma {:induction false} ObserveAllDisjoint(s: RouteState, codes: seq<string>, nows: seq<int>)
    requires |nows| == |codes|
    requires Disjoint(s)
    ensures Disjoint(ObserveAll(s, codes, nows))
    decreases |codes|
  {
    if |codes| > 0 {
      var n := |codes| - 1;
      ObserveAllDisjoint(s, codes[..n], nows[..n]);
    }
  }

  /** Reading an expected, never-seen code k times (k >= 1) verifies it on the first read and
      leaves a read count of k once it has been read again: the first read creates no counter,
      and the count never double-counts the verifying read. */
  lemma {:induction false} RepeatedReadsCount(s: RouteState, codigo: string, nows: seq<int>)
    requires codigo in s.faltantes && codigo !in s.conferidos && codigo !in s.duplicados
    requires |nows| >= 1
    ensures var t := ObserveAll(s, seq(|nows|, _ => codigo), nows);
      && codigo in t.conferidos && codigo !in t.faltantes
      && (|nows| == 1 ==> codigo !in t.duplicados)
      && (|nows| >= 2 ==> codigo in t.duplicados && t.duplicados[codigo] == |nows|)
      && t.timestamps[codigo] == nows[|nows| - 1]
    decreases |nows|
  {
    var n := |nows| - 1;
    var codes := seq(|nows|, _ => codigo);
    assert codes[..n] == seq(n, _ => codigo);
    var prev := ObserveAll(s, codes[..n], nows[..n]);
    assert ObserveAll(s, codes, nows) == Observe(prev, codigo, nows[n]);
    if n == 0 {
      assert prev == s;
      assert Classify(s, codigo) == Verified;
    } else {
      RepeatedReadsCount(s, codigo, nows[..n]);
      assert Classify(prev, codigo) == Duplicate;
      assert ReadCount(prev.duplicados, codigo) == n;
    }
  }

  /** `cleanupIdFromOtherRoutes`'s effect on one route that is not the owner: `id` leaves
      the off-route set and the counters; its timestamp goes too, but only when something
      was removed and the route no longer knows `id` as verified, expected or imported. */
  function CleanupState(s: RouteState, id: string): (t: RouteState)
    ensures id !in t.foraDeRota && id !in t.duplicados
    ensures t.foraDeRota == s.foraDeRota - {id} && t.duplicados.Keys == s.duplicados.Keys - {id}
    ensures forall k :: k in t.duplicados ==> t.duplicados[k] == s.duplicados[k]
    ensures (id !in t.timestamps && id in s.timestamps) <==>
              (id in s.timestamps && (id in s.foraDeRota || id in s.duplicados)
               && id !in s.conferidos && id !in s.faltantes && id !in s.ids)
    ensures forall k :: k != id ==> (k in t.timestamps <==> k in s.timestamps)
    ensures forall k :: k in t.timestamps ==> k in s.timestamps && t.timestamps[k] == s.timestamps[k]
    ensures t == s.(foraDeRota := t.foraDeRota, duplicados := t.duplicados, timestamps := t.timestamps)
    ensures Disjoint(s) ==> Disjoint(t)
  {
    var changed := id in s.foraDeRota || id in s.duplicados;
    var fora := s.foraDeRota - {id};
    var dup := s.duplicados - {id};
    var stillRelevant := id in s.conferidos || id in s.faltantes || id in s.ids || id in fora || id in dup;
    var ts := if changed && !stillRelevant then s.timestamps - {id} else s.timestamps;
    s.(foraDeRota := fora, duplicados := dup, timestamps := ts)
  }

  /** The set of elements of a sequence. */
  function Elems(xs: seq<string>): set<string> {
    set x | x in xs
  }

  /** The merge step of import and of manual entry: every extracted id joins `ids`, joins
      `faltantes` unless already verified, and `totalInicial` becomes the size of `ids`. */
  function Merge(s: RouteState, xs: seq<string>): (t: RouteState)
    ensures forall x :: x in xs ==> x in t.ids && (x in t.faltantes || x in t.conferidos)
    ensures s.ids <= t.ids && s.faltantes <= t.faltantes && t.conferidos == s.conferidos
    ensures t.ids - s.ids <= Elems(xs) && t.faltantes - s.faltantes <= Elems(xs)
    ensures t.faltantes * t.conferidos == s.faltantes * s.conferidos
    ensures t.totalInicial == |t.ids|
    ensures t == s.(ids := t.ids, faltantes := t.faltantes, totalInicial := t.totalInicial)
  {
    var e := Elems(xs);
    s.(ids := s.ids + e, faltantes := s.faltantes + (e - s.conferidos), totalInicial := |s.ids + e|)
  }

  /** Merging the same batch twice is the same as merging it once: a re-import of a route
      merges rather than replaces. */
  lemma MergeIdempotent(s: RouteState, xs: seq<string>)
    ensures Merge(Merge(s, xs), xs) == Merge(s, xs)
  {
  }

  /** A merge keeps the three sets disjoint exactly when none of the newly expected ids is
      already filed off route. */
  lemma MergeDisjoint(s: RouteState, xs: seq<string>)
    requires Disjoint(s)
    ensures Disjoint(Merge(s, xs)) <==> (Elems(xs) - s.conferidos) * s.foraDeRota == {}
  {
    var t := Merge(s, xs);
    if (Elems(xs) - s.conferidos) * s.foraDeRota != {} {
      var x :| x in (Elems(xs) - s.conferidos) * s.foraDeRota;
      assert x in t.faltantes * t.foraDeRota;
    }
  }

  /** The load-time fallback for older saved shapes: an empty `faltantes` next to a non-empty
      `ids` is rebuilt as `ids` minus `conferidos`. */
  function Migrate(s: RouteState): (t: RouteState)
    ensures t == s.(faltantes := t.faltantes)
    ensures |s.faltantes| == 0 && |s.ids| != 0 ==> t.faltantes <= t.ids && t.faltantes * t.conferidos == {}
                                                   && t.ids <= t.faltantes + t.conferidos
    ensures |s.faltantes| != 0 || |s.ids| == 0 ==> t == s
  {
    if |s.faltantes| == 0 && |s.ids| != 0 then s.(faltantes := s.ids - s.conferidos) else s
  }

  /** Loading the same record twice gives the same route. */
  lemma MigrateIdempotent(s: RouteState)
    ensures Migrate(Migrate(s)) == Migrate(s)
  {
  }
}

=== FILE: strings.dfy ===
/** The few JavaScript string primitives the checking tool relies on:
    `trim`, `split` on one character, the `\s` class, `\d`, ASCII case folding
    for a case-insensitive regex, and the order used by `localeCompare` on
    identifiers. */
module Strings {

  /** ECMAScript WhiteSpace and LineTerminator: the set removed by `trim()` and matched by `\s`. */
  predicate IsJsSpace(c: char) {
    c == '\t' || c == '\n' || c == '\U{000B}' || c == '\U{000C}' || c == '\r' || c == ' '
    || c == '\U{00A0}' || c == '\U{1680}' || ('\U{2000}' <= c <= '\U{200A}')
    || c == '\U{2028}' || c == '\U{2029}' || c == '\U{202F}' || c == '\U{205F}'
    || c == '\U{3000}' || c == '\U{FEFF}'
  }

  /** The regex class `\d` (without the `u` flag): ASCII digits only. */
  predicate IsDigit(c: char) {
    '0' <= c <= '9'
  }

  predicate AllDigits(s: string) {
    forall i :: 0 <= i < |s| ==> IsDigit(s[i])
  }

  /** Leading whitespace removed. */
  function TrimStart(s: string): (r: string)
    ensures |r| <= |s| && r == s[|s| - |r|..]
    ensures forall i :: 0 <= i < |s| - |r| ==> IsJsSpace(s[i])
    ensures r == [] || !IsJsSpace(r[0])
  {
    if |s| > 0 && IsJsSpace(s[0]) then
      var r := TrimStart(s[1..]);
      assert s[1..][|s| - 1 - |r|..] == s[|s| - |r|..];
      assert forall i :: 1 <= i < |s| - |r| ==> s[i] == s[1..][i - 1];
      r
    else s
  }

  /** Trailing whitespace removed. */
  function TrimEnd(s: string): (r: string)
    ensures |r| <= |s| && r == s[..|r|]
    ensures forall i :: |r| <= i < |s| ==> IsJsSpace(s[i])
    ensures r == [] || !IsJsSpace(r[|r| - 1])
  {
    if |s| > 0 && IsJsSpace(s[|s| - 1]) then
      var r := TrimEnd(s[..|s| - 1]);
      assert s[..|s| - 1][..|r|] == s[..|r|];
      assert forall i :: |r| <= i < |s| - 1 ==> s[i] == s[..|s| - 1][i];
      r
    else s
  }

  /** `String.prototype.trim`: whitespace cut from both ends, so the result
      neither starts nor ends with whitespace. */
  function Trim(s: string): (r: string)
    ensures |r| <= |s|
    ensures r == [] || (!IsJsSpace(r[0]) && !IsJsSpace(r[|r| - 1]))
  {
    TrimEnd(TrimStart(s))
  }

  /** A string without whitespace at either end is its own trim. */
  lemma TrimNoSpace(s: string)
    requires s == [] || (!IsJsSpace(s[0]) && !IsJsSpace(s[|s| - 1]))
    ensures Trim(s) == s
  {
  }

  /** `s.split(sep)` for a one-character separator: the pieces between separators,
      empty pieces included, so there is always at least one. */
  function SplitOn(s: string, sep: char): (r: seq<string>)
    ensures |r| >= 1
    ensures forall p :: p in r ==> sep !in p
    decreases |s|
  {
    if |s| == 0 then [""]
    else
      var rest := SplitOn(s[1..], sep);
      if s[0] == sep then [""] + rest
      else [[s[0]] + rest[0]] + rest[1..]
  }

  /** `parts.join(sep)`, the inverse of SplitOn. */
  function Join(parts: seq<string>, sep: char): string
    requires |parts| >= 1
    decreases |parts|
  {
    if |parts| == 1 then parts[0] else parts[0] + [sep] + Join(parts[1..], sep)
  }

  /** Splitting and joining again gives back the original line. */
  lemma {:induction false} SplitJoin(s: string, sep: char)
    ensures Join(SplitOn(s, sep), sep) == s
    decreases |s|
  {
    if |s| > 0 {
      var rest := SplitOn(s[1..], sep);
      SplitJoin(s[1..], sep);
      if s[0] == sep {
        assert SplitOn(s, sep) == [""] + rest;
        assert ([""] + rest)[1..] == rest;
      } else {
        var r := SplitOn(s, sep);
        assert r == [[s[0]] + rest[0]] + rest[1..];
        if |rest| == 1 {
          assert Join(r, sep) == [s[0]] + rest[0];
        } else {
          assert r[1..] == rest[1..];
          assert Join(rest, sep) == rest[0] + [sep] + Join(rest[1..], sep);
        }
      }
    }
  }

  /** Number of separators in `s`. */
  function Count(s: string, sep: char): nat
  {
    if |s| == 0 then 0 else (if s[0] == sep then 1 else 0) + Count(s[1..], sep)
  }

  /** A line with n separators splits into n + 1 pieces: the column count of a CSV row. */
  lemma {:induction false} SplitCount(s: string, sep: char)
    ensures |SplitOn(s, sep)| == Count(s, sep) + 1
    decreases |s|
  {
    if |s| > 0 {
      SplitCount(s[1..], sep);
    }
  }

  /** The separator set of the manual-entry box: the regex `[\s,;]`. */
  predicate IsTokenSep(c: char) {
    IsJsSpace(c) || c == ',' || c == ';'
  }

  /** The characters of `s` that are not separators, in order. */
  function NonSep(s: string): (r: string)
  {
    if |s| == 0 then [] else (if IsTokenSep(s[0]) then [] else [s[0]]) + NonSep(s[1..])
  }

  function Concat(parts: seq<string>): string
  {
    if |parts| == 0 then [] else parts[0] + Concat(parts[1..])
  }

  /** A non-empty run of non-separator characters. */
  predicate IsToken(t: string) {
    |t| > 0 && forall i :: 0 <= i < |t| ==> !IsTokenSep(t[i])
  }

  /** A non-separator glued onto a token makes a token. */
  lemma GlueToken(c: char, t: string)
    requires !IsTokenSep(c) && IsToken(t)
    ensures IsToken([c] + t)
  {
    var x := [c] + t;
    forall i | 0 <= i < |x|
      ensures !IsTokenSep(x[i])
    {
      if i > 0 {
        assert x[i] == t[i - 1];
      }
    }
  }

  /** Concatenation of a list with one part in front. */
  lemma ConcatCons(x: string, xs: seq<string>)
    ensures Concat([x] + xs) == x + Concat(xs)
  {
    assert ([x] + xs)[1..] == xs;
  }

  /** Concatenation of a list whose first part gained a front character. */
  lemma GlueConcat(c: char, rest: seq<string>)
    requires |rest| > 0
    ensures Concat([[c] + rest[0]] + rest[1..]) == [c] + Concat(rest)
  {
    var tail := Concat(rest[1..]);
    ConcatCons([c] + rest[0], rest[1..]);
    AppendAssoc([c], rest[0], tail);
  }

  /** String concatenation regroups: a proof step, not a property of the tool. */
  lemma AppendAssoc(a: string, b: string, c: string)
    ensures (a + b) + c == a + (b + c)
  {
  }

  /** A non-separator glued onto the first of some tokens. */
  lemma GlueFront(c: char, rest: seq<string>)
    requires !IsTokenSep(c) && |rest| > 0
    requires forall t :: t in rest ==> IsToken(t)
    ensures var r := [[c] + rest[0]] + rest[1..];
      (forall t :: t in r ==> IsToken(t)) && Concat(r) == [c] + Concat(rest)
  {
    assert rest[0] in rest;
    GlueToken(c, rest[0]);
    GlueConcat(c, rest);
    var r := [[c] + rest[0]] + rest[1..];
    forall t | t in r
      ensures IsToken(t)
    {
      if t != r[0] {
        assert t in rest[1..];
      }
    }
  }

  /** A one-character token put in front of some tokens. */
  lemma PutFront(c: char, rest: seq<string>)
    requires !IsTokenSep(c)
    requires forall t :: t in rest ==> IsToken(t)
    ensures var r := [[c]] + rest;
      (forall t :: t in r ==> IsToken(t)) && Concat(r) == [c] + Concat(rest)
  {
    var r := [[c]] + rest;
    assert r[1..] == rest;
  }

  /** No separator anywhere in `p`. */
  predicate NoSep(p: string) {
    forall c :: c in p ==> !IsTokenSep(c)
  }

  /** The separator characters of `s`, in order. */
  function SepChars(s: string): string
  {
    if |s| == 0 then [] else (if IsTokenSep(s[0]) then [s[0]] else []) + SepChars(s[1..])
  }

  /** `s.split(/[\s,;]/)`: the pieces between single separator characters, empty pieces
      included, one more than there are separators. A piece starts non-empty exactly when
      `s` starts with a non-separator. */
  function SplitSeps(s: string): (r: seq<string>)
    ensures |r| == |SepChars(s)| + 1
    ensures forall p :: p in r ==> NoSep(p)
    ensures |r[0]| > 0 <==> |s| > 0 && !IsTokenSep(s[0])
    decreases |s|
  {
    if |s| == 0 then [""]
    else
      var rest := SplitSeps(s[1..]);
      if IsTokenSep(s[0]) then [""] + rest
      else
        assert rest[0] in rest;
        assert forall p :: p in rest[1..] ==> p in rest;
        [[s[0]] + rest[0]] + rest[1..]
  }

  /** The pieces put back together, the i-th separator between pieces i and i + 1. */
  function Rejoin(parts: seq<string>, seps: string): string
    requires |parts| == |seps| + 1
    decreases |seps|
  {
    if |seps| == 0 then parts[0] else parts[0] + [seps[0]] + Rejoin(parts[1..], seps[1..])
  }

  /** Putting the separators back between the pieces gives back `s`: with every piece
      separator-free, the pieces are exactly the stretches between separators. */
  lemma {:induction false} SplitSepsRejoin(s: string)
    ensures Rejoin(SplitSeps(s), SepChars(s)) == s
    decreases |s|
  {
    if |s| > 0 {
      var rest := SplitSeps(s[1..]);
      var seps := SepChars(s[1..]);
      SplitSepsRejoin(s[1..]);
      if IsTokenSep(s[0]) {
        assert SepChars(s) == [s[0]] + seps;
        assert ([""] + rest)[1..] == rest;
        assert ([s[0]] + seps)[1..] == seps;
      } else {
        assert SepChars(s) == seps;
        var r := SplitSeps(s);
        assert r == [[s[0]] + rest[0]] + rest[1..];
        if |seps| == 0 {
          assert Rejoin(r, seps) == [s[0]] + rest[0];
        } else {
          assert r[1..] == rest[1..];
          assert Rejoin(rest, seps) == rest[0] + [seps[0]] + Rejoin(rest[1..], seps[1..]);
        }
      }
    }
  }

  /** `.filter(Boolean)` on strings: the non-empty ones, in order. */
  function NonEmpty(parts: seq<string>): seq<string>
  {
    if |parts| == 0 then [] else (if parts[0] == "" then [] else [parts[0]]) + NonEmpty(parts[1..])
  }

  lemma NonEmptyCons(x: string, xs: seq<string>)
    ensures NonEmpty([x] + xs) == (if x == "" then [] else [x]) + NonEmpty(xs)
  {
    assert ([x] + xs)[1..] == xs;
  }

  /** The filter after a non-separator is put in front of the first piece: it lengthens the
      first kept piece when that piece was non-empty, and is kept alone otherwise. */
  lemma NonEmptyGlue(c: char, pieces: seq<string>)
    requires |pieces| >= 1
    ensures var rest := NonEmpty(pieces);
      NonEmpty([[c] + pieces[0]] + pieces[1..])
      == (if pieces[0] != "" then [[c] + rest[0]] + rest[1..] else [[c]] + rest)
  {
    var p0, tail := pieces[0], pieces[1..];
    assert pieces == [p0] + tail;
    NonEmptyCons(p0, tail);
    NonEmptyCons([c] + p0, tail);
    var kept := NonEmpty(tail);
    if p0 != "" {
      assert NonEmpty(pieces) == [p0] + kept;
      assert ([p0] + kept)[1..] == kept;
    } else {
      assert NonEmpty(pieces) == kept;
      assert [c] + p0 == [c];
    }
  }

  /** `s.split(/[\s,;]+/).map(x => x.trim()).filter(Boolean)`: the maximal runs of
      non-separator characters. These are the non-empty pieces between single separators
      (splitting at each separator only adds empty pieces, which the filter drops, and
      the trim has nothing left to cut). Every token is non-empty and separator-free,
      and together they hold exactly the non-separator characters of `s`. */
  function Tokens(s: string): (r: seq<string>)
    ensures r == NonEmpty(SplitSeps(s))
    ensures forall t :: t in r ==> IsToken(t)
    ensures Concat(r) == NonSep(s)
    ensures |s| > 0 && !IsTokenSep(s[0]) ==> |r| > 0 && |r[0]| > 0 && r[0][0] == s[0]
    decreases |s|
  {
    if |s| == 0 then []
    else
      var rest := Tokens(s[1..]);
      var pieces := SplitSeps(s[1..]);
      if IsTokenSep(s[0]) then
        NonEmptyCons("", pieces);
        rest
      else if |s| > 1 && !IsTokenSep(s[1]) then
        GlueFront(s[0], rest);
        NonEmptyGlue(s[0], pieces);
        [[s[0]] + rest[0]] + rest[1..]
      else
        PutFront(s[0], rest);
        NonEmptyGlue(s[0], pieces);
        [[s[0]]] + rest
  }

  /** ASCII lower-casing, the folding a non-unicode `/i` regex applies to ASCII patterns. */
  function Lower(c: char): char {
    if 'A' <= c <= 'Z' then (c as int + 32) as char else c
  }

  /** `pat` (lower-case) occurs in `s` at position i, ignoring ASCII case. */
  predicate MatchesAtCI(s: string, pat: string, i: int) {
    0 <= i && i + |pat| <= |s| && forall j :: 0 <= j < |pat| ==> Lower(s[i + j]) == pat[j]
  }

  /** `/pat/i.test(s)` for a literal lower-case pattern. */
  predicate ContainsCI(s: string, pat: string) {
    exists i | 0 <= i <= |s| - |pat| :: MatchesAtCI(s, pat, i)
  }

  /** Code-point lexicographic order, the order `localeCompare` gives on the
      digit-only identifiers this tool handles. */
  predicate StrLess(a: string, b: string)
    decreases |a|
  {
    if |a| == 0 then |b| > 0
    else if |b| == 0 then false
    else if a[0] != b[0] then a[0] < b[0]
    else StrLess(a[1..], b[1..])
  }

  lemma {:induction false} StrLessIrreflexive(a: string)
    ensures !StrLess(a, a)
    decreases |a|
  {
    if |a| > 0 {
      StrLessIrreflexive(a[1..]);
    }
  }

  lemma {:induction false} StrLessTransitive(a: string, b: string, c: string)
    requires StrLess(a, b) && StrLess(b, c)
    ensures StrLess(a, c)
    decreases |a|
  {
    if |a| > 0 && a[0] == b[0] && b[0] == c[0] {
      StrLessTransitive(a[1..], b[1..], c[1..]);
    }
  }

  /** Any two distinct strings are ordered one way or the other. */
  lemma {:induction false} StrLessTotal(a: string, b: string)
    requires a != b
    ensures StrLess(a, b) || StrLess(b, a)
    decreases |a|
  {
    if |a| > 0 && |b| > 0 && a[0] == b[0] {
      assert a == [a[0]] + a[1..] && b == [b[0]] + b[1..];
      StrLessTotal(a[1..], b[1..]);
    }
  }

  lemma {:induction false} StrLessAsymmetric(a: string, b: string)
    requires StrLess(a, b)
    ensures !StrLess(b, a)
  {
    if StrLess(b, a) {
      StrLessTransitive(a, b, a);
      StrLessIrreflexive(a);
    }
  }
}

=== FILE: wrappers.dfy ===
/** Option and Result, the two failure-carrying shapes the model uses. */
module Wrappers {

  /** A value that may be absent (the source's `null`). */
  datatype Option<+T> = None | Some(value: T)

  /** A value, or the reason the source refused to produce one (an `alert` and early `return`). */
  datatype Result<+R, +E> = Success(value: R) | Failure(error: E)
}
